=== FILE: README.md ===
# Sandbox lifecycle and its LocalDb and IIS Express grains

A `Sandbox` is a disposable test fixture. It has an identity, made of a clock
reading and a description. It owns a private temporary directory
(`%TEMP%\sandbox_<random>`). It also carries a dynamic bag of named attributes,
and any attribute that is a *grain* takes part in the lifecycle:

- `Play` creates the directory and calls `Setup(sandbox)` on every grain in
  attachment order.
- `Dispose` calls `Dispose()` on every grain in the same order. It then tries
  up to three times to delete the directory.

Two grains are modelled.

- The LocalDb grain creates a SQL Server LocalDB database whose `.mdf` and log
  files live in `Data` under the sandbox directory. Disposing the grain
  detaches that database.
- The IIS Express grain registers a site in the user's
  `applicationhost.config`, then creates the `IisExpress` tool that serves the
  site. Disposing the grain kills the process and unregisters the site.

## Modules

| file | module | what it holds |
|---|---|---|
| `basics.dfy` | `Basics` | `Option`, `Result`, and the exceptions the code throws |
| `text.dfy` | `Text` | `IsNullOrWhiteSpace`, `TrimStart`, decimal rendering and parsing, `Split` |
| `paths.dfy` | `Paths` | `Path.Combine` with Windows separators |
| `lists.dfy` | `Lists` | LINQ `Distinct` and `List<T>.Remove` |
| `sandbox.dfy` | `Core` | the sandbox, its attribute bag, the `Grains` view, `Play`, `Dispose`, and the deletion retry loop |
| `localdb.dfy` | `LocalDbTool` | the `LocalDb` tool: names, file layout, connection strings, create and detach |
| `localdb_grain.dfy` | `LocalDbGrains` | the LocalDb grain |
| `iisexpress.dfy` | `IisExpressTool` | the `IisExpress` tool: configuration files, sites, bindings, process handle, end points |
| `iisexpress_grain.dfy` | `IisExpressGrains` | the IIS Express grain and its protocol switches |
| `registration.dfy` | `Registration` | `UseLocalDb`/`UseIisExpress`, dispatch to each grain, and whole-sandbox scenarios |

## How the outside world is modelled

- **Genericity.** `Core` is generic in the grain type and in the *world* the
  grains act on.
- **Grain calls.** A grain call returns a `Step`: the grain's new state, the
  new world, and the exception it threw, if any.
- **Write-back.** The sandbox writes each grain's new state back into the
  grain's attribute slot. It does this even when the call threw, because the
  source mutates grains in place.
- **Deletion attempts.** The deletion loop gets an oracle that says what each
  `Directory.Delete` call did: deleted, an `IOException`, or an
  `UnauthorizedAccessException`. A directory that does not exist fails every
  attempt with an `IOException`.
- **Ambient inputs.** The clock, the temporary directory, the random file name,
  the assembly directory, the user's profile directory, the free TCP ports and
  the id of the started IIS Express process are all parameters.
- **SQL.** SQL steps are abstracted by `SqlServer`, which says whether
  `master` opens and whether `CREATE DATABASE` succeeds. The commands sent are
  recorded.
- **IIS Express configuration.** Configuration files are a map from path to
  their list of sites.

## Where the behaviour is surprising

The model follows the code as written.

- **Deletion retries.**
  - Each `IOException` advances the loop counter twice, once in the handler
    and once in the loop header. Repeated I/O failures therefore get only two
    attempts.
  - `UnauthorizedAccessException` is swallowed and retried, for three attempts
    in all.
  - The loop is characterised by a budget: an I/O failure costs 2, an access
    denial costs 1, and the loop stops once 3 is reached.
- **Registration stores the grain before configuring it.** `UseLocalDb` and
  `UseIisExpress` assign the new grain to the sandbox and only then run the
  callback on it. A callback that throws therefore leaves the grain
  registered, in whatever state the callback reached, and its exception
  escapes.
- **Grain exceptions are not contained.** The first exception from a grain's
  `Setup` or `Dispose` escapes. Later grains are not called. In `Dispose`, the
  directory is then not deleted.
- **`LocalDbGrain.Setup` and the database prefix.** The format string has two
  placeholders but gets one argument, so any non-blank `DatabasePrefix` throws
  `FormatException`. With a blank prefix, the database is named
  `sandbox_<ticks>`.
- **`DetachDatabase`.** It always connects to the `v11.0` instance, whatever
  the version. It swallows every SQL failure and then deletes both files.
- **`IisExpressGrain.Setup`.**
  - It ignores the grain's `IisExpressInstallationPath` and always uses the
    default path.
  - It looks the site up with `FirstOrDefault`, so an older site of the same
    name wins.
- **`IisExpressGrain.Dispose`.** It dereferences `Instance` unchecked, so a
  grain that was never set up throws `NullReferenceException`.
- **Protocol switches.** `UseHttp(false)`/`UseHttps(false)` remove only the
  first occurrence before `Distinct`. Turning a protocol off is therefore not
  idempotent on a list with duplicates.

## Model

| member | source | states |
|---|---|---|
| `Core.New` | src/Core/Sandbox.cs:11-17 | a new sandbox has the clock reading as id, the description `Sandbox <id>`, no attributes, and a location under the temporary directory ending in `sandbox_<random name>` |
| `Core.LocationsUnique` | src/Core/Sandbox.cs:16 | two sandboxes under the same temporary directory share a location only when they drew the same random file name |
| `Core.DescriptionsUnique` | src/Core/Sandbox.cs:13-14 | default descriptions differ whenever the clock readings differ |
| `Core.SetDescription` | src/Core/Sandbox.cs:20-24 | the description is replaced; id, location and attributes are kept |
| `Core.Lookup` | test/LocalDb.Tests/LocalDbGrainTests.cs:12-15 | reading an attribute gives nothing exactly when no entry has that name, and otherwise the value of an entry of that name |
| `Core.Put` | src/LocalDb/LocalDbSandboxExtensions.cs:12 | assigning an existing name overwrites its entry in place and keeps the order of names; a new name is appended; entries of other names are untouched |
| `Core.LookupAfterPut` | src/LocalDb/LocalDbSandboxExtensions.cs:12 | after an assignment, the name reads back the value assigned, and every other name reads what it read before |
| `Core.PutKeepsNamesUnique` | src/LocalDb/LocalDbSandboxExtensions.cs:12 | assignment never creates two entries of the same name |
| `Core.Attach` | src/LocalDb/LocalDbSandboxExtensions.cs:9-12 | `sandbox.<name> = v`: the name holds `v` and other names are unchanged; a new name goes last, an existing one keeps its place; names stay unique; identity is kept |
| `Core.Grains` | src/Core/Sandbox.cs:70-80 | every value in `Grains` is a grain held by some attribute, every grain held by an attribute is in `Grains`, and `Grains` is no longer than the bag |
| `Core.GrainSlots` | src/Core/Sandbox.cs:74-76 | the positions of the attributes holding grains: each such position once, in increasing order, and no other |
| `Core.GrainsInSlotOrder` | src/Core/Sandbox.cs:74-78 | `Grains` has one entry per grain-holding attribute, in bag order: its `k`-th entry is the grain of the `k`-th grain-holding attribute |
| `Core.GrainsAfterOverwrite` | src/Core/Sandbox.cs:74-78 | assigning to an existing name replaces that attribute's contribution to `Grains` in place (its grain leaves, the new value enters at that position if it is a grain) and keeps every other grain where it was |
| `Core.GrainsAfterAttach` | src/Core/Sandbox.cs:74-78 | attaching a grain under a new name appends it to `Grains`; attaching a non-grain leaves `Grains` as it was |
| `Core.ForEachGrain` | src/Core/Sandbox.cs:32 | the walk keeps the sandbox's identity and the shape of its bag; without an exception it reaches the end, and with one it stops at a slot holding a grain |
| `Core.ThrowerStops` | src/Core/Sandbox.cs:32 | when whether a grain's call throws depends on the grain, the walk reports an exception exactly when some grain from its start on throws; the last grain called is then one that throws and none called before it throws, and without an exception no called grain throws |
| `Core.ForEachGrainUntouched` | src/Core/Sandbox.cs:32 | slots before the walk's start, and slots after the grain that threw, are left as they were |
| `Core.ForEachGrainCallsAll` | src/Core/Sandbox.cs:32 | when no grain throws, every grain from the start index on is called, in bag order |
| `Core.ForEachGrainCallsUpTo` | src/Core/Sandbox.cs:32 | when a grain throws, the grains called are those up to and including it, in bag order |
| `Core.RunFromStartStopped` | src/Core/Sandbox.cs:32 | after an exception, the grains called are a non-empty prefix of `Grains` and the later grains are untouched |
| `Core.RunFromStart` | src/Core/Sandbox.cs:45 | a walk over the whole bag calls all of `Grains` on success and a prefix of it otherwise; the number of grains never changes |
| `Core.NoFailureRunsAll` | src/Core/Sandbox.cs:32 | grains that never throw let the walk reach the end of the bag |
| `Core.Play` | src/Core/Sandbox.cs:29-41 | the directory exists afterwards and is created only if missing; without an exception every grain of `Grains` is set up in order, and with one the grains set up are a non-empty prefix of `Grains` and the later grains are untouched; identity and names are kept |
| `Core.PlayStopsAtFirstThrower` | src/Core/Sandbox.cs:32 | `Play` fails exactly when some grain's `Setup` throws; the grains set up are then those of `Grains` up to and including the first that throws |
| `Core.Dispose` | src/Core/Sandbox.cs:43-47 | grains are disposed in order; when the walk reports an exception, the grains disposed are a non-empty prefix of `Grains`, deletion is skipped and the directory is left; otherwise deletion makes 1 to 3 attempts by the stopping rule, a missing directory gives two failed attempts, and the directory remains only if deletion failed |
| `Core.DisposeStopsAtFirstThrower` | src/Core/Sandbox.cs:45-46 | `Dispose` fails exactly when some grain's `Dispose` throws; the grains disposed are then those of `Grains` up to and including the first that throws, and the directory is neither deleted nor changed; when none throws, every grain is disposed and deletion runs |
| `Core.PlayThenDispose` | src/Core/Sandbox.cs:29-47 | with grains that never throw and a first deletion that succeeds, every grain is set up and disposed once, in order, and no directory is left |
| `Core.SpentAtLeastAttempts` | src/Core/Sandbox.cs:51-62 | each failed attempt advances the loop counter by at least one |
| `Core.SpentMonotonic` | src/Core/Sandbox.cs:51-62 | the loop counter never goes back |
| `Core.DeleteFrom` | src/Core/Sandbox.cs:49-68 | continuing the loop after failed attempts obeys the stopping rule: stop at the first success, or after the failure that takes the counter to 3 |
| `Core.DeleteRun` | src/Core/Sandbox.cs:49-68 | the whole loop obeys the stopping rule and makes between one and three attempts |
| `Core.StopsAtUnique` | src/Core/Sandbox.cs:51-67 | the stopping rule determines the number of attempts and the result |
| `Core.TryDeleteFilesAndFoldersRecursively` | src/Core/Sandbox.cs:49-68 | the loop, with its counter advanced twice per `IOException`, returns after the first success and makes 1 to 3 attempts; it agrees with the stopping rule |
| `Core.AllIoFailuresGiveTwoAttempts` | src/Core/Sandbox.cs:58-62 | repeated `IOException`s end the loop after two attempts, with nothing deleted |
| `Core.AllAccessDeniedGiveThreeAttempts` | src/Core/Sandbox.cs:63-66 | repeated access denials are retried: three attempts, nothing deleted |
| `Core.TwoIoFailuresGiveUp` | src/Core/Sandbox.cs:51-62 | after two `IOException`s no third call is made, even if it would have succeeded |
| `Core.AccessDeniedThenDeleted` | src/Core/Sandbox.cs:51-66 | two access denials followed by a success delete the directory on the third call |
| `Core.FirstDeleteSucceeds` | src/Core/Sandbox.cs:55-56 | a first call that succeeds returns at once |
| `Lists.FirstIndex` | src/IisExpress/IisExpressGrain.cs:66 | the position of the first occurrence: the element is there and not before it |
| `Lists.Distinct` | src/IisExpress/IisExpressGrain.cs:68 | the result has no duplicates and the same members as the input, listed in the order of their first occurrence, and is no longer |
| `Lists.RemoveFirst` | src/IisExpress/IisExpressGrain.cs:66 | removing an absent element changes nothing; otherwise exactly one copy of it is removed |
| `Lists.RemoveFirstDropsFirst` | src/IisExpress/IisExpressGrain.cs:66 | removing a present element drops exactly its first occurrence and keeps everything before and after it in order |
| `Lists.RemoveFirstOfDistinct` | src/IisExpress/IisExpressGrain.cs:66-68 | on a duplicate-free list, removing the first occurrence removes every occurrence |
| `Paths.Combine` | src/LocalDb/LocalDb.cs:52-55 | an empty second part gives the first; a rooted second part wins; otherwise the second part goes under the first |
| `Text.TrimStart` | src/LocalDb/LocalDb.cs:29 | trimming drops exactly the leading white space; a string is null-or-white-space exactly when trimming leaves nothing |
| `LocalDbTool.DatabaseName` | src/LocalDb/LocalDb.cs:29-31 | a null or blank name becomes `sandbox_<ticks>`, otherwise it is kept; the result is never blank |
| `LocalDbTool.BaseDirectory` | src/LocalDb/LocalDb.cs:48-50 | a null or blank location falls back to the assembly's directory |
| `LocalDbTool.Layout` | src/LocalDb/LocalDb.cs:52-55 | the output folder is `Data` under the base directory; the data file `<name>.mdf` and log file `<name>_log.ldf` are in it; the connection string attaches the data file |
| `LocalDbTool.DatabaseFilesDistinct` | src/LocalDb/LocalDb.cs:53-55 | the data and log files of a database are two different paths, ending in their file names |
| `LocalDbTool.ConnectionStringPieces` | src/LocalDb/LocalDb.cs:75 | the connection string consists of exactly the four settings, in order |
| `LocalDbTool.ConnectionStringRoundTrip` | src/LocalDb/LocalDb.cs:75 | reading the connection string back gives the instance, the data file and the catalog it was built from |
| `LocalDbTool.CreateCommand` | src/LocalDb/LocalDb.cs:64-70 | `CREATE DATABASE <name> ...` goes to the `master` database of the tool's version and places the database in its `.mdf` file |
| `LocalDbTool.DetachCommand` | src/LocalDb/LocalDb.cs:82-87 | `ALTER DATABASE <name> ... sp_detach_db '<name>'` goes to the `v11.0` `master` database |
| `LocalDbTool.DetachDatabase` | src/LocalDb/LocalDb.cs:78-97 | whatever SQL does, both database files are gone afterwards and no other file is touched; the command goes to the `v11.0` master database |
| `LocalDbTool.DetachIgnoresSqlOutcome` | src/LocalDb/LocalDb.cs:80-91 | the detach command's failure is swallowed and changes nothing |
| `LocalDbTool.DetachIgnoresVersion` | src/LocalDb/LocalDb.cs:82 | the detach command is the same whatever the database's version |
| `LocalDbTool.Dispose` | src/LocalDb/LocalDb.cs:99-102 | disposing removes both database files and sends the detach command for the database's name |
| `LocalDbTool.New` | src/LocalDb/LocalDb.cs:25-76 | the database exists exactly when `master` opens and `CREATE DATABASE` succeeds, with the derived name and layout; if `master` does not open, nothing is sent and no file changes; otherwise exactly two commands are sent, the detach for the name and then the `CREATE DATABASE` for the layout; a successful create puts the data and log files on disk, and a failed one leaves both off it |
| `LocalDbGrains.NewGrain` | src/LocalDb/LocalDbGrain.cs:8-12 | a new grain targets `v11.0`, has no prefix and no database |
| `LocalDbGrains.Setup` | src/LocalDb/LocalDbGrain.cs:25-32 | a non-blank prefix throws `FormatException` and changes nothing; otherwise the grain gets a database exactly when SQL succeeds, named `sandbox_<ticks>` under the sandbox's directory; a successful set-up adds exactly its two files and sends the detach and then the create command; on failure the grain is unchanged |
| `LocalDbGrains.Dispose` | src/LocalDb/LocalDbGrain.cs:19-23 | never throws; with no database it does nothing; otherwise both files are removed and the detach command is sent |
| `LocalDbGrains.PrefixNeverUsed` | src/LocalDb/LocalDbGrain.cs:27-31 | a successful set-up always names the database after the clock, never after the prefix |
| `LocalDbGrains.SetupThenDispose` | src/LocalDb/LocalDbGrain.cs:19-32 | set-up puts both database files on disk; disposal then removes exactly those two, so the files are those before set-up without them, and the last command is the detach for `sandbox_<ticks>` |
| `LocalDbGrains.DisposeTwice` | src/LocalDb/LocalDbGrain.cs:19-23 | disposing a second time leaves the same files as disposing once |
| `IisExpressTool.ApplicationHostConfigPath` | src/IisExpress/IisExpress.cs:50-53 | a given path is used as is; otherwise the path is the user profile's `Documents\IISExpress\config\applicationhost.config` |
| `IisExpressTool.SiteIndex` | src/IisExpress/IisExpress.cs:204 | finds the first site of a name, or reports that there is none |
| `IisExpressTool.BindingInformationParts` | src/IisExpress/IisExpress.cs:191 | the binding string splits into the address `*`, the port and `localhost` |
| `IisExpressTool.PortFor` | src/IisExpress/IisExpress.cs:190 | `https` gets port 44399, every other protocol the free port at its own index |
| `IisExpressTool.Bindings` | src/IisExpress/IisExpress.cs:186-192 | one binding per protocol, in order, with that protocol |
| `IisExpressTool.AddSite` | src/IisExpress/IisExpress.cs:174-198 | null or empty protocols throw `ArgumentException("protocols")`; otherwise a site with the name, path, pool `Clr4IntegratedAppPool` and one binding per protocol is appended to that configuration file, and no other file changes |
| `IisExpressTool.RemoveSite` | src/IisExpress/IisExpress.cs:200-210 | an absent name changes nothing; otherwise exactly the first site of that name is removed, and no other file changes |
| `IisExpressTool.AddThenRemove` | src/IisExpress/IisExpress.cs:174-210 | adding a site under a name the file did not hold, then removing that name, restores every file |
| `IisExpressTool.New` | src/IisExpress/IisExpress.cs:26-48 | it throws `ArgumentException` naming the site exactly when no site has that name; otherwise it serves the first such site; a blank installation path falls back to the default; the arguments are exactly `/site:<name> /config:"<configuration path>"` |
| `IisExpressTool.NewFindsAddedSite` | src/IisExpress/IisExpress.cs:32-35 | a site just added under a new name is the one the tool serves |
| `IisExpressTool.Arguments` | src/IisExpress/IisExpress.cs:39 | the arguments start with `/site:<name> /config:"` and end with the quoted configuration path |
| `IisExpressTool.Ready` | src/IisExpress/IisExpress.cs:86-91 | the readiness callback stores the process and changes nothing else |
| `IisExpressTool.Quit` | src/IisExpress/IisExpress.cs:133-140 | the handle is taken and cleared; the process killed is the one held, if any |
| `IisExpressTool.Dispose` | src/IisExpress/IisExpress.cs:142-154 | disposing kills the process held, if any, and leaves no handle |
| `IisExpressTool.QuitIdempotent` | src/IisExpress/IisExpress.cs:133-140 | a second `Quit` or `Dispose` kills nothing and changes nothing |
| `IisExpressTool.ReadyThenQuit` | src/IisExpress/IisExpress.cs:133-140 | a process that became ready is killed by the first `Quit` and by no later one |
| `IisExpressTool.Endpoints` | src/IisExpress/IisExpress.cs:212-220 | one URL `protocol://host:port` per binding, in order; a binding without a readable end point throws `NullReferenceException` |
| `IisExpressTool.BindingRoundTrip` | src/IisExpress/IisExpress.cs:191 | a binding made for a port reads back as that port on `localhost` |
| `IisExpressTool.AddedSiteEndpoints` | src/IisExpress/IisExpress.cs:186-192 | an added site serves each protocol on `localhost`, on 44399 for `https` and otherwise on the matching free port |
| `IisExpressTool.BindingInformationInjective` | src/IisExpress/IisExpress.cs:191 | distinct ports give distinct binding strings |
| `IisExpressGrains.NewGrain` | src/IisExpress/IisExpressGrain.cs:14-18 | a new grain uses `http` only and the default installation path, and has no source and no instance |
| `IisExpressGrains.UseProtocol` | src/IisExpress/IisExpressGrain.cs:61-81 | the result has no duplicates; turning a protocol on adds it and keeps every other protocol; turning it off on a duplicate-free list drops it and keeps the rest in order |
| `IisExpressGrains.UseHttp` | src/IisExpress/IisExpressGrain.cs:61-71 | only the protocols change and they stay duplicate-free; `http` is present after turning it on and, on a duplicate-free list, absent after turning it off |
| `IisExpressGrains.UseHttps` | src/IisExpress/IisExpressGrain.cs:72-81 | only the protocols change and they stay duplicate-free; `https` is present after turning it on and, on a duplicate-free list, absent after turning it off |
| `IisExpressGrains.UseProtocolAppends` | src/IisExpress/IisExpressGrain.cs:63-68 | on a duplicate-free list, turning a protocol on appends it unless it is already there |
| `IisExpressGrains.UseProtocolIdempotent` | src/IisExpress/IisExpressGrain.cs:61-71 | turning a protocol on twice is turning it on once; the same holds for turning it off on a duplicate-free list |
| `IisExpressGrains.UseProtocolOffTwiceDiffers` | src/IisExpress/IisExpressGrain.cs:65-68 | on `[http, http]`, turning `http` off once leaves one copy and a second time leaves none |
| `IisExpressGrains.DefaultThenHttps` | src/IisExpress/IisExpressGrain.cs:72-81 | `UseHttps()` on a new grain gives `http` then `https` |
| `IisExpressGrains.Register` | src/IisExpress/IisExpressGrain.cs:38-43 | no protocols throw `ArgumentException("protocols")`; otherwise the site is appended to the user's configuration, and the tool serves a site of that name from that configuration, runs the default executable and holds the process the readiness callback stored |
| `IisExpressGrains.RegisterFreshName` | src/IisExpress/IisExpressGrain.cs:38-41 | under a name the configuration did not hold, the tool serves the site just added |
| `IisExpressGrains.Setup` | src/IisExpress/IisExpressGrain.cs:26-44 | a null, blank or missing source throws `ArgumentNullException("Source")` and changes nothing; otherwise `Web` under the sandbox is created and recorded as the destination, and set-up succeeds exactly when there are protocols, serving the site `sandbox_<id>` from the user's configuration |
| `IisExpressGrains.Dispose` | src/IisExpress/IisExpressGrain.cs:20-24 | a grain never set up throws `NullReferenceException` and changes nothing; otherwise the process held is killed, the handle cleared and the site removed from the user's configuration |
| `IisExpressGrains.SetupIgnoresInstallationPath` | src/IisExpress/IisExpressGrain.cs:41 | the grain's installation path changes neither the outcome nor the tool of a set-up |
| `IisExpressGrains.SetupThenDispose` | src/IisExpress/IisExpressGrain.cs:20-44 | set-up then disposal kills the started process once and, for a fresh site name, leaves every configuration file as it was |
| `IisExpressGrains.DisposeTwiceKillsOnce` | src/IisExpress/IisExpressGrain.cs:20-24 | a second disposal of a set-up grain succeeds and kills nothing more |
| `IisExpressGrains.SetupServesAddedSite` | src/IisExpress/IisExpressGrain.cs:38-41 | for a fresh site name, the grain's tool serves the site just added for the sandbox's `Web` folder |
| `IisExpressGrains.HttpsSetupEndpoints` | test/IisExpress.Tests/IisExpressGrainTests.cs:24-39 | a grain with a source and `UseHttps()` serves `http` on the first free port and then `https` on 44399 |
| `IisExpressGrains.HttpThenHttpsEndpoints` | src/IisExpress/IisExpress.cs:186-192 | a site added with `http` then `https` has those two end points, in that order |
| `Registration.SetupGrain` | src/Core/Sandbox.cs:85 | set-up is dispatched to the grain's own kind, and a grain touches only its own part of the world |
| `Registration.DisposeGrain` | src/Core/Sandbox.cs:83 | disposal is dispatched to the grain's own kind; a LocalDb grain never throws; an IIS Express grain throws exactly when it was never set up |
| `Registration.UseLocalDb` | src/LocalDb/LocalDbSandboxExtensions.cs:7-17 | the sandbox holds, under `LocalDb`, a new grain as the callback left it, even when the callback throws; the callback's exception, and only it, escapes; other names are unchanged; a new name is appended; identity is kept |
| `Registration.UseIisExpress` | src/IisExpress/IisExpressGrain.cs:115-126 | the sandbox holds, under `IisExpress`, a new grain as the callback left it, even when the callback throws; the callback's exception, and only it, escapes; other names are unchanged; a new name is appended; identity is kept |
| `Registration.UseIisExpressWithSource` | src/IisExpress/IisExpressGrain.cs:110-113 | nothing escapes, and the sandbox holds a new IIS Express grain whose only change is its source |
| `Registration.LocationNotBlank` | src/Core/Sandbox.cs:16 | a sandbox's location is never blank, so LocalDb never falls back to the assembly directory |
| `Registration.RegistrationAloneHasNoInstance` | test/LocalDb.Tests/LocalDbGrainTests.cs:51-58 | a LocalDb grain that was registered but not played has no database |
| `Registration.PlayDefaultLocalDb` | test/LocalDb.Tests/LocalDbGrainTests.cs:22-27 | playing a new sandbox with a default LocalDb grain creates the directory, gives the grain the `v11.0` database `sandbox_<ticks>` laid out under the sandbox's directory, and puts its two files on disk |
| `Registration.DisposeLocalDbOnly` | src/Core/Sandbox.cs:43-47 | disposing a sandbox whose only grain is a LocalDb grain holding a database does not throw, removes both database files and, when the first deletion succeeds, deletes the directory |
| `Registration.PlayThenDisposeDefaultLocalDb` | test/LocalDb.Tests/LocalDbGrainTests.cs:18-34 | when SQL accepts everything and the first deletion succeeds, playing a sandbox with a default LocalDb grain puts both database files on disk, and disposing it removes both files and the directory |
| `Registration.PlayWithPrefixFails` | src/LocalDb/LocalDbGrain.cs:27-29 | a configured prefix makes `Play` throw `FormatException`; the grain stays as registered, with no database, and the world is unchanged |
| `Registration.UseLocalDbTwice` | src/LocalDb/LocalDbSandboxExtensions.cs:12 | registering LocalDb twice leaves a single LocalDb grain in `Grains`, as the second callback left it, whether or not either callback threw |
| `Registration.ThrowingCallbackKeepsGrain` | src/LocalDb/LocalDbSandboxExtensions.cs:12-15 | the grain is stored before its callback runs: on a sandbox without LocalDb, the grain as the callback left it joins the end of `Grains`, and the callback's exception is the one that escapes |
| `Registration.IisExpressThenLocalDb` | src/IisExpress/IisExpressGrain.cs:120 | registering IIS Express and then LocalDb on an empty sandbox stores the two new grains in that order |
| `Registration.DisposeStopsAtUnsetIisExpress` | src/IisExpress/IisExpressGrain.cs:20-24 | a first grain that is an IIS Express grain never set up makes `Dispose` throw `NullReferenceException` at once: no other grain is disposed, the directory is not deleted and nothing changes |
| `Registration.DisposeUnsetIisExpress` | src/Core/Sandbox.cs:43-47 | disposing an unplayed sandbox given IIS Express and then LocalDb never disposes the LocalDb grain and skips deletion |

## Left out

- Filesystem effects:
  - Copying the web site (`CopyAll`) is reduced to recording the destination directory.
  - The access rule added to the sandbox directory is not modelled.
  - Creating the `Data` folder has no effect on the model's file set.
- Process control is not modelled: starting IIS Express, the asynchronous
  `Start`/`Stop` tasks, cancellation, and the Win32 window-message shutdown.
  Readiness is the `ready` parameter, and `Kill` is recorded as a killed
  process id.
- `GetAvailablePorts`/`GetAvailablePort` are replaced by the `freePorts`
  oracle, because they depend on the operating system's sockets.
- `ServerManager` is reduced to lists of sites per configuration file. Its
  validation, including what it does with two sites of one name, is not
  modelled: that code is not part of this model.
- SQL Server behaviour is reduced to `SqlServer`'s flags. `OpenConnection`
  and the contents of the database are not modelled.
- `Thread.Sleep(1)` between deletion attempts has no observable effect here.
- `Expando`'s dynamic dispatch is not modelled. `Expando` is not part of this
  model; its property bag is modelled as an ordered dictionary.
- The same grain object stored under two names, and callbacks that change the
  sandbox itself, are not modelled: a grain is a value in one slot, and a
  callback is given the new grain and returns it as it left it, with the
  exception it threw, if any.
- `File.Delete` failures inside `DetachDatabase` are not modelled: files are
  removed from a set.
- The `long` width of `Id` and of the clock ticks is not modelled: they are
  unbounded naturals.
- A `null` `Version` or `Protocols` list on a grain is not modelled. The
  `IIisExpressConfiguration` interface is implied by the grain's fields.
- `IisExpressGrains.Setup`: a null `Protocols` list cannot be expressed, so
  the `ArgumentException` for null protocols is covered only through
  `IisExpressTool.AddSite`.

=== FILE: basics.dfy ===
/** Optional values, results, and the exceptions the modelled code raises. */
module Basics {

  /** A possibly-null reference. */
  datatype Option<+T> = None | Some(value: T)

  /** The .NET exceptions that escape the modelled operations. */
  datatype Exception =
    | FormatException
    | ArgumentNullException(paramName: string)
    | ArgumentException(paramName: string)
    | NullReferenceException
    | SqlException

  /** A value, or the exception thrown instead of producing it. */
  datatype Result<+T> = Ok(value: T) | Err(error: Exception)
}

=== FILE: iisexpress.dfy ===
/** `IisExpress`: a site registered in an IIS Express `applicationhost.config`
    and the process that serves it. The configuration files are a map from
    file path to the sites they list; a binding keeps its information string
    (`address:port:host`) as IIS stores it. Process start-up is asynchronous
    and not modelled: the process handle is whatever the readiness callback
    stored, and `Quit` only reads and clears it. */
module IisExpressTool {
  import opened Basics
  import opened Text
  import opened Paths

  const DefaultIisExpressPath := "C:" + "\\Program Files\\IIS Express"
  const ExecutableName := "iisexpress.exe"
  const UserConfigFile := "Documents" + "\\IISExpress\\config\\applicationhost.config"
  const ApplicationPool := "Clr4IntegratedAppPool"
  const HttpsPort: nat := 44399
  const BindingHost := "localhost"

  datatype Binding = Binding(protocol: string, bindingInformation: string)

  datatype Site = Site(name: string, physicalPath: string, applicationPool: string, bindings: seq<Binding>)

  /** The sites listed by each configuration file. */
  type ConfigStore = map<string, seq<Site>>

  function SitesIn(store: ConfigStore, configPath: string): seq<Site> {
    if configPath in store then store[configPath] else []
  }

  /* ------------------------------------------------------------ configuration */

  /** The configuration file used when none is given: under the user's profile. */
  function ApplicationHostConfigPath(given: Option<string>, userProfile: string): (path: string)
    ensures given.Some? ==> path == given.value
    ensures given.None? ==> StartsWith(path, userProfile) && EndsWith(path, UserConfigFile)
  {
    match given
    case Some(p) => p
    case None =>
      assert UserConfigFile[0] == 'D' && UserConfigFile[1] == 'o';
      CombineRelative(userProfile, UserConfigFile);
      Combine(userProfile, UserConfigFile)
  }

  /** The position of the first site named `name`, or the number of sites. */
  function SiteIndex(sites: seq<Site>, name: string): (i: nat)
    ensures i <= |sites|
    ensures forall k :: 0 <= k < i ==> sites[k].name != name
    ensures i < |sites| ==> sites[i].name == name
    decreases |sites|
  {
    if |sites| == 0 then 0
    else if sites[0].name == name then 0
    else 1 + SiteIndex(sites[1..], name)
  }

  /** The binding information IIS stores for a port on every address. */
  function BindingInformation(port: nat): string {
    "*:" + Decimal(port) + ":" + BindingHost
  }

  /** The information string splits at its colons into address, port and host. */
  lemma BindingInformationParts(port: nat)
    ensures Split(BindingInformation(port), ':') == ["*", Decimal(port), BindingHost]
  {
    var d := Decimal(port);
    assert forall i :: 0 <= i < |d| ==> d[i] != ':' by {
      assert AllDigits(d);
    }
    assert BindingInformation(port) == "*" + [':'] + d + [':'] + BindingHost;
    SplitThree("*", d, BindingHost, ':');
  }

  /** The port the `i`-th protocol binds to: `https` always gets 44399, any
      other protocol the `i`-th free port. */
  function PortFor(protocols: seq<string>, freePorts: nat -> nat, i: nat): (port: nat)
    requires i < |protocols|
    ensures protocols[i] == "https" ==> port == 44399
    ensures protocols[i] != "https" ==> port == freePorts(i)
  {
    if protocols[i] == "https" then HttpsPort else freePorts(i)
  }

  function Bindings(protocols: seq<string>, freePorts: nat -> nat): (bs: seq<Binding>)
    ensures |bs| == |protocols|
    ensures forall i :: 0 <= i < |bs| ==> bs[i].protocol == protocols[i]
  {
    seq(|protocols|, i requires 0 <= i < |protocols| =>
      Binding(protocols[i], BindingInformation(PortFor(protocols, freePorts, i))))
  }

  datatype Added = Added(site: Site, store: ConfigStore)

  /** `AddSiteToApplicationHostConfig`: null or empty protocols throw before the
      configuration is opened; otherwise the site is appended to the file's
      sites with one binding per protocol, in order. The free ports are an
      oracle: `freePorts(i)` is the `i`-th port the sockets handed out. */
  function AddSite(name: string, path: string, protocols: Option<seq<string>>, configPath: Option<string>,
                   userProfile: string, store: ConfigStore, freePorts: nat -> nat): (r: Result<Added>)
    ensures r.Err? <==> protocols.None? || |protocols.value| == 0
    ensures r.Err? ==> r.error == ArgumentException("protocols")
    ensures r.Ok? ==>
              var cfg := ApplicationHostConfigPath(configPath, userProfile);
              && r.value.site.name == name && r.value.site.physicalPath == path
              && r.value.site.applicationPool == ApplicationPool
              && |r.value.site.bindings| == |protocols.value|
              && SitesIn(r.value.store, cfg) == SitesIn(store, cfg) + [r.value.site]
              && (forall c :: c != cfg ==> SitesIn(r.value.store, c) == SitesIn(store, c))
  {
    if protocols.None? || |protocols.value| == 0 then
      Err(ArgumentException("protocols"))
    else
      var cfg := ApplicationHostConfigPath(configPath, userProfile);
      var site := Site(name, path, ApplicationPool, Bindings(protocols.value, freePorts));
      Ok(Added(site, store[cfg := SitesIn(store, cfg) + [site]]))
  }

  /** `RemoveSiteFromApplicationHostConfig`: drop the first site of that name,
      if there is one. */
  function RemoveSite(name: string, configPath: Option<string>, userProfile: string, store: ConfigStore): (r: ConfigStore)
    ensures var cfg := ApplicationHostConfigPath(configPath, userProfile);
            var sites := SitesIn(store, cfg);
            var i := SiteIndex(sites, name);
            && (i == |sites| ==> r == store)
            && (i < |sites| ==> SitesIn(r, cfg) == sites[..i] + sites[i + 1..])
            && (forall c :: c != cfg ==> SitesIn(r, c) == SitesIn(store, c))
  {
    var cfg := ApplicationHostConfigPath(configPath, userProfile);
    var sites := SitesIn(store, cfg);
    var i := SiteIndex(sites, name);
    if i == |sites| then store else store[cfg := sites[..i] + sites[i + 1..]]
  }

  /** Adding a site under a new name and removing that name restores the file's sites. */
  lemma AddThenRemove(name: string, path: string, protocols: seq<string>, configPath: Option<string>,
                      userProfile: string, store: ConfigStore, freePorts: nat -> nat)
    requires |protocols| > 0
    requires forall s :: s in SitesIn(store, ApplicationHostConfigPath(configPath, userProfile)) ==> s.name != name
    ensures var a := AddSite(name, path, Some(protocols), configPath, userProfile, store, freePorts);
            var r := RemoveSite(name, configPath, userProfile, a.value.store);
            forall c :: SitesIn(r, c) == SitesIn(store, c)
  {
    var cfg := ApplicationHostConfigPath(configPath, userProfile);
    var a := AddSite(name, path, Some(protocols), configPath, userProfile, store, freePorts);
    var before := SitesIn(store, cfg);
    var after := SitesIn(a.value.store, cfg);
    SiteIndexAppend(before, a.value.site, name);
    assert after[..|before|] == before;
  }

  /** The first site named `name` in `sites + [s]`, when `sites` has none, is `s`. */
  lemma {:induction false} SiteIndexAppend(sites: seq<Site>, s: Site, name: string)
    requires forall t :: t in sites ==> t.name != name
    requires s.name == name
    ensures SiteIndex(sites + [s], name) == |sites|
    decreases |sites|
  {
    if |sites| > 0 {
      assert (sites + [s])[1..] == sites[1..] + [s];
      assert sites[0] in sites;
      SiteIndexAppend(sites[1..], s, name);
    }
  }

  /* ------------------------------------------------------------------ the tool */

  datatype IisExpress = IisExpress(
    site: Site,
    applicationHostConfigPath: string,
    fileName: string,
    arguments: string,
    process: Option<nat>)

  /** The command line: the site by name, then the configuration file, quoted. */
  function Arguments(siteName: string, configPath: string): (a: string)
    ensures StartsWith(a, "/site:" + siteName + " /config:\"")
    ensures EndsWith(a, "\"" + configPath + "\"")
  {
    var head := "/site:" + siteName + " /config:\"";
    var a := head + (configPath + "\"");
    assert a[..|head|] == head;
    assert a[|a| - |configPath + "\""| - 1..] == "\"" + configPath + "\"";
    a
  }

  /** `new IisExpress(siteName, iisInstallationPath, applicationHostConfigPath)`:
      find the first site of that name in the configuration (none throws
      `ArgumentException` naming the site), then prepare the command line. */
  function New(siteName: string, installationPath: Option<string>, configPath: Option<string>,
               userProfile: string, store: ConfigStore): (r: Result<IisExpress>)
    ensures var cfg := ApplicationHostConfigPath(configPath, userProfile);
            var sites := SitesIn(store, cfg);
            && (r.Err? <==> forall s :: s in sites ==> s.name != siteName)
            && (r.Err? ==> r.error == ArgumentException(siteName))
            && (r.Ok? ==>
                  && r.value.site == sites[SiteIndex(sites, siteName)]
                  && r.value.site.name == siteName
                  && r.value.applicationHostConfigPath == cfg
                  && r.value.process.None?)
    ensures r.Ok? && IsNullOrWhiteSpace(installationPath) ==>
              r.value.fileName == Combine(DefaultIisExpressPath, ExecutableName)
    ensures r.Ok? && !IsNullOrWhiteSpace(installationPath) ==>
              r.value.fileName == Combine(installationPath.value, ExecutableName)
    ensures r.Ok? ==>
              r.value.arguments == "/site:" + siteName + " /config:\"" + ApplicationHostConfigPath(configPath, userProfile) + "\""
  {
    var cfg := ApplicationHostConfigPath(configPath, userProfile);
    var sites := SitesIn(store, cfg);
    var i := SiteIndex(sites, siteName);
    if i == |sites| then
      Err(ArgumentException(siteName))
    else
      assert sites[i] in sites;
      var site := sites[i];
      var path := if IsNullOrWhiteSpace(installationPath) then DefaultIisExpressPath else installationPath.value;
      var arguments := Arguments(site.name, cfg);
      Ok(IisExpress(site, cfg, Combine(path, ExecutableName), arguments, None))
  }

  /** A site just added under a new name is the one the tool finds. */
  lemma NewFindsAddedSite(name: string, path: string, protocols: seq<string>, configPath: Option<string>,
                          userProfile: string, store: ConfigStore, freePorts: nat -> nat, installationPath: Option<string>)
    requires |protocols| > 0
    requires forall s :: s in SitesIn(store, ApplicationHostConfigPath(configPath, userProfile)) ==> s.name != name
    ensures var a := AddSite(name, path, Some(protocols), configPath, userProfile, store, freePorts);
            var x := New(name, installationPath, configPath, userProfile, a.value.store);
            x.Ok? && x.value.site == a.value.site
  {
    var cfg := ApplicationHostConfigPath(configPath, userProfile);
    var a := AddSite(name, path, Some(protocols), configPath, userProfile, store, freePorts);
    SiteIndexAppend(SitesIn(store, cfg), a.value.site, name);
  }

  /** The readiness callback stores the started process. */
  function Ready(x: IisExpress, processId: nat): (r: IisExpress)
    ensures r.process == Some(processId)
    ensures r.site == x.site && r.fileName == x.fileName && r.arguments == x.arguments
    ensures r.applicationHostConfigPath == x.applicationHostConfigPath
  {
    x.(process := Some(processId))
  }

  /** What `Quit` did: the tool afterwards and the process it killed, if any. */
  datatype Quitted = Quitted(instance: IisExpress, killed: Option<nat>)

  /** `Quit`: atomically take the process handle, leaving none, and kill the
      process taken, if any. */
  function Quit(x: IisExpress): (r: Quitted)
    ensures r.instance.process.None?
    ensures r.killed == x.process
    ensures r.instance == x.(process := None)
  {
    Quitted(x.(process := None), x.process)
  }

  /** `Dispose` is `Quit`. */
  function Dispose(x: IisExpress): (r: Quitted)
    ensures r.killed == x.process
    ensures r.instance == x.(process := None)
  {
    Quit(x)
  }

  /** A second `Quit` (or `Dispose`) kills nothing and changes nothing. */
  lemma QuitIdempotent(x: IisExpress)
    ensures Quit(Quit(x).instance).instance == Quit(x).instance
    ensures Quit(Quit(x).instance).killed.None?
    ensures Dispose(Dispose(x).instance).killed.None?
  {
  }

  /** A process that became ready is killed by the first `Quit`, and only by it. */
  lemma ReadyThenQuit(x: IisExpress, processId: nat)
    ensures Quit(Ready(x, processId)).killed == Some(processId)
    ensures Quit(Quit(Ready(x, processId)).instance).killed.None?
  {
  }

  /* ---------------------------------------------------------------- endpoints */

  /** The host and port of a binding, read back from its information string;
      absent when the string is not `address:port:host` with a decimal port. */
  function Endpoint(b: Binding): Option<(string, nat)> {
    var parts := Split(b.bindingInformation, ':');
    if |parts| == 3 && |parts[1]| > 0 && AllDigits(parts[1]) then Some((parts[2], ParseDecimal(parts[1])))
    else None
  }

  function Url(protocol: string, host: string, port: nat): string {
    protocol + "://" + host + ":" + Decimal(port)
  }

  /** `Endpoints`: one URL per binding, in binding order. A binding without a
      readable end point makes `EndPoint.Port` dereference null. */
  function Endpoints(bindings: seq<Binding>): (r: Result<seq<string>>)
    ensures r.Ok? <==> forall i :: 0 <= i < |bindings| ==> Endpoint(bindings[i]).Some?
    ensures r.Err? ==> r.error == NullReferenceException
    ensures r.Ok? ==> |r.value| == |bindings|
    ensures r.Ok? ==> forall i :: 0 <= i < |bindings| ==>
              r.value[i] == Url(bindings[i].protocol, Endpoint(bindings[i]).value.0, Endpoint(bindings[i]).value.1)
    decreases |bindings|
  {
    if |bindings| == 0 then Ok([])
    else
      match Endpoint(bindings[0])
      case None => Err(NullReferenceException)
      case Some(hp) =>
        var rest := Endpoints(bindings[1..]);
        assert forall i :: 1 <= i < |bindings| ==> bindings[i] == bindings[1..][i - 1];
        if rest.Err? then
          var k :| 0 <= k < |bindings[1..]| && Endpoint(bindings[1..][k]).None?;
          assert Endpoint(bindings[k + 1]).None?;
          Err(rest.error)
        else Ok([Url(bindings[0].protocol, hp.0, hp.1)] + rest.value)
  }

  /** The information string of a binding made for `port` reads back as that
      port on `localhost`. */
  lemma BindingRoundTrip(protocol: string, port: nat)
    ensures Endpoint(Binding(protocol, BindingInformation(port))) == Some((BindingHost, port))
  {
    BindingInformationParts(port);
    ParseDecimalRoundTrip(port);
  }

  /** The end points of an added site: for each protocol in order, a URL on
      `localhost` with 44399 for `https` and the matching free port otherwise. */
  lemma AddedSiteEndpoints(name: string, path: string, protocols: seq<string>, configPath: Option<string>,
                           userProfile: string, store: ConfigStore, freePorts: nat -> nat)
    requires |protocols| > 0
    ensures var a := AddSite(name, path, Some(protocols), configPath, userProfile, store, freePorts);
            var e := Endpoints(a.value.site.bindings);
            && e.Ok? && |e.value| == |protocols|
            && forall i :: 0 <= i < |protocols| ==>
                 e.value[i] == Url(protocols[i], BindingHost, PortFor(protocols, freePorts, i))
  {
    var bs := Bindings(protocols, freePorts);
    forall i | 0 <= i < |protocols|
      ensures Endpoint(bs[i]) == Some((BindingHost, PortFor(protocols, freePorts, i)))
    {
      BindingRoundTrip(protocols[i], PortFor(protocols, freePorts, i));
    }
  }

  /** Distinct ports give distinct binding strings. */
  lemma BindingInformationInjective(p: nat, q: nat)
    ensures BindingInformation(p) == BindingInformation(q) ==> p == q
  {
    BindingRoundTrip("", p);
    BindingRoundTrip("", q);
  }
}

=== FILE: iisexpress_grain.dfy ===
/** The IisExpress grain: set up, it copies a web site into the sandbox,
    registers it with IIS Express under the sandbox's name and starts it;
    disposed, it stops the process and unregisters the site. */
module IisExpressGrains {
  import opened Basics
  import opened Text
  import opened Paths
  import opened Lists
  import Core
  import opened IisExpressTool

  /** What the grain acts on: the directories on disk, the IIS Express
      configuration files, and the processes killed so far. */
  datatype Web = Web(directories: set<string>, store: ConfigStore, killed: seq<nat>)

  datatype IisExpressGrain = IisExpressGrain(
    source: Option<string>,
    installationPath: Option<string>,
    protocols: seq<string>,
    destination: Option<string>,
    instance: Option<IisExpress>)

  const WebDirectory := "Web"

  /** A fresh grain: plain `http`, the default installation path, nothing set up. */
  function NewGrain(): (g: IisExpressGrain)
    ensures g.protocols == ["http"]
    ensures g.installationPath == Some(DefaultIisExpressPath)
    ensures g.source.None? && g.destination.None? && g.instance.None?
  {
    IisExpressGrain(None, Some(DefaultIisExpressPath), ["http"], None, None)
  }

  /* -------------------------------------------------------------- protocols */

  /** `UseHttp`/`UseHttps`: add the protocol (or remove its first occurrence),
      then drop duplicates, keeping first occurrences in order. */
  function UseProtocol(protocols: seq<string>, p: string, use: bool): (r: seq<string>)
    ensures NoDuplicates(r)
    ensures use ==> p in r && forall x :: x in r <==> x in protocols || x == p
    ensures !use && NoDuplicates(protocols) ==> r == Without(protocols, p) && p !in r
  {
    if use then Distinct(protocols + [p])
    else
      var r := Distinct(RemoveFirst(protocols, p));
      assert NoDuplicates(protocols) ==> r == Without(protocols, p) && p !in r by {
        if NoDuplicates(protocols) {
          RemoveFirstOfDistinct(protocols, p);
          DistinctOfDistinct(RemoveFirst(protocols, p));
        }
      }
      r
  }

  function UseHttp(g: IisExpressGrain, use: bool): (r: IisExpressGrain)
    ensures r == g.(protocols := r.protocols)
    ensures NoDuplicates(r.protocols)
    ensures use ==> "http" in r.protocols && forall x :: x in r.protocols <==> x in g.protocols || x == "http"
    ensures !use && NoDuplicates(g.protocols) ==> "http" !in r.protocols && r.protocols == Without(g.protocols, "http")
  {
    g.(protocols := UseProtocol(g.protocols, "http", use))
  }

  function UseHttps(g: IisExpressGrain, use: bool): (r: IisExpressGrain)
    ensures r == g.(protocols := r.protocols)
    ensures NoDuplicates(r.protocols)
    ensures use ==> "https" in r.protocols && forall x :: x in r.protocols <==> x in g.protocols || x == "https"
    ensures !use && NoDuplicates(g.protocols) ==> "https" !in r.protocols && r.protocols == Without(g.protocols, "https")
  {
    g.(protocols := UseProtocol(g.protocols, "https", use))
  }

  /** On a duplicate-free list, adding a protocol appends it unless it is
      already there: the other entries keep their order. */
  lemma UseProtocolAppends(protocols: seq<string>, p: string)
    requires NoDuplicates(protocols)
    ensures UseProtocol(protocols, p, true) == if p in protocols then protocols else protocols + [p]
  {
    DistinctSnoc(protocols, p);
    DistinctOfDistinct(protocols);
  }

  /** Turning a protocol on or off twice is the same as doing it once, when
      the list starts duplicate-free or the protocol is being turned on. */
  lemma UseProtocolIdempotent(protocols: seq<string>, p: string, use: bool)
    requires use || NoDuplicates(protocols)
    ensures UseProtocol(UseProtocol(protocols, p, use), p, use) == UseProtocol(protocols, p, use)
  {
    var r := UseProtocol(protocols, p, use);
    if use {
      UseProtocolAppends(r, p);
    } else {
      assert RemoveFirst(r, p) == r;
      DistinctOfDistinct(r);
    }
  }

  /** Without that precondition turning off is not idempotent: `Remove` drops
      one copy and `Distinct` keeps the other. */
  lemma UseProtocolOffTwiceDiffers()
    ensures UseProtocol(["http", "http"], "http", false) == ["http"]
    ensures UseProtocol(UseProtocol(["http", "http"], "http", false), "http", false) == []
  {
    assert RemoveFirst(["http", "http"], "http") == ["http"];
    assert Distinct(["http"]) == ["http"] by {
      DistinctOfDistinct(["http"]);
    }
    assert RemoveFirst(["http"], "http") == [];
  }

  /** `UseHttps()` on a fresh grain gives `http` then `https`. */
  lemma DefaultThenHttps()
    ensures UseHttps(NewGrain(), true).protocols == ["http", "https"]
  {
    var http: seq<string> := ["http"];
    assert NewGrain().protocols == http;
    assert "https" != "http" by { assert "https"[4] != "http"[3]; }
    assert NoDuplicates(http);
    UseProtocolAppends(http, "https");
    assert http + ["https"] == ["http", "https"];
  }

  /* ---------------------------------------------------------------- lifecycle */

  /** The site name of a sandbox. */
  function SiteName(id: int): string {
    "sandbox_" + FormatInt(id)
  }

  /** The site added to the configuration and the tool serving the first
      site of that name, which is an older one when the name was taken. */
  datatype Registered = Registered(added: Site, instance: IisExpress, store: ConfigStore)

  /** The registration half of `Setup`: add the site to the user's default
      configuration, then create the `IisExpress` for that name, with the
      default installation path. Start-up is asynchronous: `ready` is the
      process id the readiness callback stored, if it ran. */
  function Register(name: string, physicalPath: string, protocols: seq<string>, userProfile: string,
                    freePorts: nat -> nat, ready: Option<nat>, store: ConfigStore): (r: Result<Registered>)
    ensures r.Err? <==> |protocols| == 0
    ensures r.Err? ==> r.error == ArgumentException("protocols")
    ensures r.Ok? ==>
              var cfg := ApplicationHostConfigPath(None, userProfile);
              && r.value.added.name == name && r.value.added.physicalPath == physicalPath
              && |r.value.added.bindings| == |protocols|
              && SitesIn(r.value.store, cfg) == SitesIn(store, cfg) + [r.value.added]
              && r.value.instance.site.name == name
              && r.value.instance.site in SitesIn(r.value.store, cfg)
              && r.value.instance.applicationHostConfigPath == cfg
              && r.value.instance.fileName == Combine(DefaultIisExpressPath, ExecutableName)
              && r.value.instance.process == ready
  {
    match AddSite(name, physicalPath, Some(protocols), None, userProfile, store, freePorts)
    case Err(e) => Err(e)
    case Ok(a) =>
      var cfg := ApplicationHostConfigPath(None, userProfile);
      var sites := SitesIn(a.store, cfg);
      assert sites[|sites| - 1] == a.site;
      assert !IsWhiteSpace(DefaultIisExpressPath[0]);
      match New(a.site.name, Some(DefaultIisExpressPath), None, userProfile, a.store)
      case Err(e) => assert false; Err(e)
      case Ok(x) =>
        var x' := match ready case Some(pid) => Ready(x, pid) case None => x;
        Ok(Registered(a.site, x', a.store))
  }

  /** Under a name the configuration did not hold, the tool serves the site just added. */
  lemma RegisterFreshName(name: string, physicalPath: string, protocols: seq<string>, userProfile: string,
                          freePorts: nat -> nat, ready: Option<nat>, store: ConfigStore)
    requires |protocols| > 0
    requires forall s :: s in SitesIn(store, ApplicationHostConfigPath(None, userProfile)) ==> s.name != name
    ensures var r := Register(name, physicalPath, protocols, userProfile, freePorts, ready, store);
            r.Ok? && r.value.instance.site == r.value.added
  {
    NewFindsAddedSite(name, physicalPath, protocols, None, userProfile, store, freePorts, Some(DefaultIisExpressPath));
  }

  /** `Setup(sandbox)`. A null, blank or missing `Source` throws
      `ArgumentNullException` before anything happens. Otherwise the site is
      copied to `Web` under the sandbox and registered as `sandbox_<id>` with
      the grain's protocols; the grain's own `IisExpressInstallationPath` is
      not passed on. */
  function Setup<G>(g: IisExpressGrain, sb: Core.Sandbox<G>, userProfile: string, freePorts: nat -> nat,
                    ready: Option<nat>, w: Web): (r: Core.Step<IisExpressGrain, Web>)
    ensures IsNullOrWhiteSpace(g.source) || g.source.value !in w.directories ==>
              r == Core.Step(g, w, Some(ArgumentNullException("Source")))
    ensures !(IsNullOrWhiteSpace(g.source) || g.source.value !in w.directories) ==>
              && r.grain.destination == Some(Combine(sb.location, WebDirectory))
              && Combine(sb.location, WebDirectory) in r.world.directories
              && r.grain.protocols == g.protocols && r.grain.source == g.source
              && (r.error.None? <==> |g.protocols| > 0)
              && (r.error.Some? ==> r.error == Some(ArgumentException("protocols")) && r.grain.instance == g.instance)
    ensures r.error.None? ==>
              && r.grain.instance.Some?
              && r.grain.instance.value.site.name == SiteName(sb.id)
              && r.grain.instance.value.fileName == Combine(DefaultIisExpressPath, ExecutableName)
              && r.grain.instance.value.process == ready
              && r.grain.instance.value.site in SitesIn(r.world.store, ApplicationHostConfigPath(None, userProfile))
  {
    if IsNullOrWhiteSpace(g.source) || g.source.value !in w.directories then
      Core.Step(g, w, Some(ArgumentNullException("Source")))
    else
      var destination := Combine(sb.location, WebDirectory);
      var g1 := g.(destination := Some(destination));
      var w1 := w.(directories := w.directories + {destination});
      match Register(SiteName(sb.id), destination, g.protocols, userProfile, freePorts, ready, w1.store)
      case Err(e) => Core.Step(g1, w1, Some(e))
      case Ok(reg) =>
        Core.Step(g1.(instance := Some(reg.instance)), w1.(store := reg.store), None)
  }

  /** `Dispose`: `Instance` is dereferenced without a check, so a grain that was
      never set up throws `NullReferenceException` and changes nothing.
      Otherwise the process is quit and the site removed from the user's
      default configuration. */
  function Dispose(g: IisExpressGrain, userProfile: string, w: Web): (r: Core.Step<IisExpressGrain, Web>)
    ensures g.instance.None? ==> r == Core.Step(g, w, Some(NullReferenceException))
    ensures g.instance.Some? ==>
              && r.error.None?
              && r.grain.instance == Some(g.instance.value.(process := None))
              && r.world.directories == w.directories
              && r.world.store == RemoveSite(g.instance.value.site.name, None, userProfile, w.store)
              && (g.instance.value.process.Some? ==> r.world.killed == w.killed + [g.instance.value.process.value])
              && (g.instance.value.process.None? ==> r.world.killed == w.killed)
  {
    match g.instance
    case None => Core.Step(g, w, Some(NullReferenceException))
    case Some(x) =>
      var q := IisExpressTool.Dispose(x);
      var killed := match q.killed case Some(pid) => w.killed + [pid] case None => w.killed;
      Core.Step(g.(instance := Some(q.instance)), Web(w.directories, RemoveSite(x.site.name, None, userProfile, w.store), killed), None)
  }

  /** The grain's installation path has no effect on the executable started. */
  lemma SetupIgnoresInstallationPath<G>(g: IisExpressGrain, path: Option<string>, sb: Core.Sandbox<G>, userProfile: string,
                                        freePorts: nat -> nat, ready: Option<nat>, w: Web)
    ensures Setup(g.(installationPath := path), sb, userProfile, freePorts, ready, w).error
         == Setup(g, sb, userProfile, freePorts, ready, w).error
    ensures var r := Setup(g.(installationPath := path), sb, userProfile, freePorts, ready, w);
            r.error.None? ==> r.grain.instance == Setup(g, sb, userProfile, freePorts, ready, w).grain.instance
  {
  }

  /** A successful set-up followed by disposal kills the started process,
      leaves the tool without a process, and leaves the user's configuration
      as it was when no site of that name was registered before. */
  lemma SetupThenDispose<G>(g: IisExpressGrain, sb: Core.Sandbox<G>, userProfile: string, freePorts: nat -> nat,
                            pid: nat, w: Web)
    requires !IsNullOrWhiteSpace(g.source) && g.source.value in w.directories
    requires |g.protocols| > 0
    requires forall s :: s in SitesIn(w.store, ApplicationHostConfigPath(None, userProfile)) ==> s.name != SiteName(sb.id)
    ensures var s := Setup(g, sb, userProfile, freePorts, Some(pid), w);
            var d := Dispose(s.grain, userProfile, s.world);
            && s.error.None? && d.error.None?
            && d.world.killed == w.killed + [pid]
            && d.grain.instance.value.process.None?
            && (forall c :: SitesIn(d.world.store, c) == SitesIn(w.store, c))
  {
    var destination := Combine(sb.location, WebDirectory);
    AddThenRemove(SiteName(sb.id), destination, g.protocols, None, userProfile, w.store, freePorts);
  }

  /** Disposing a grain twice fails the second time only if it was never set up;
      otherwise the second disposal kills nothing more. */
  lemma DisposeTwiceKillsOnce(g: IisExpressGrain, userProfile: string, w: Web)
    requires g.instance.Some?
    ensures var d1 := Dispose(g, userProfile, w);
            var d2 := Dispose(d1.grain, userProfile, d1.world);
            d2.error.None? && d2.world.killed == d1.world.killed
  {
  }

  /** Set up under a site name the configuration did not hold, the grain's
      tool serves the site just added: the sandbox's `Web` folder, with one
      binding per configured protocol. */
  lemma SetupServesAddedSite<G>(g: IisExpressGrain, sb: Core.Sandbox<G>, userProfile: string, freePorts: nat -> nat,
                                ready: Option<nat>, w: Web)
    requires !IsNullOrWhiteSpace(g.source) && g.source.value in w.directories
    requires |g.protocols| > 0
    requires forall s :: s in SitesIn(w.store, ApplicationHostConfigPath(None, userProfile)) ==> s.name != SiteName(sb.id)
    ensures var r := Setup(g, sb, userProfile, freePorts, ready, w);
            var a := AddSite(SiteName(sb.id), Combine(sb.location, WebDirectory), Some(g.protocols), None, userProfile, w.store, freePorts);
            && r.error.None? && a.Ok?
            && r.grain.instance.value.site == a.value.site
  {
    var destination := Combine(sb.location, WebDirectory);
    RegisterFreshName(SiteName(sb.id), destination, g.protocols, userProfile, freePorts, ready, w.store);
  }

  /** A grain given an existing source and `UseHttps()`, set up in a sandbox
      whose site name is not yet registered, serves `http` on the first free
      port and `https` on 44399, in that order. */
  lemma HttpsSetupEndpoints<G>(source: string, sb: Core.Sandbox<G>, userProfile: string, freePorts: nat -> nat,
                               ready: Option<nat>, w: Web)
    requires !IsNullOrWhiteSpace(Some(source)) && source in w.directories
    requires forall s :: s in SitesIn(w.store, ApplicationHostConfigPath(None, userProfile)) ==> s.name != SiteName(sb.id)
    ensures var g := UseHttps(NewGrain().(source := Some(source)), true);
            var r := Setup(g, sb, userProfile, freePorts, ready, w);
            && r.error.None?
            && Endpoints(r.grain.instance.value.site.bindings)
               == Ok([Url("http", BindingHost, freePorts(0)), Url("https", BindingHost, HttpsPort)])
  {
    var g := UseHttps(NewGrain().(source := Some(source)), true);
    DefaultThenHttps();
    SetupServesAddedSite(g, sb, userProfile, freePorts, ready, w);
    HttpThenHttpsEndpoints(SiteName(sb.id), Combine(sb.location, WebDirectory), userProfile, w.store, freePorts);
  }

  /** The end points of a site added with `http` then `https`. */
  lemma HttpThenHttpsEndpoints(name: string, path: string, userProfile: string, store: ConfigStore, freePorts: nat -> nat)
    ensures var a := AddSite(name, path, Some(["http", "https"]), None, userProfile, store, freePorts);
            Endpoints(a.value.site.bindings) == Ok([Url("http", BindingHost, freePorts(0)), Url("https", BindingHost, HttpsPort)])
  {
    var ps := ["http", "https"];
    AddedSiteEndpoints(name, path, ps, None, userProfile, store, freePorts);
    var a := AddSite(name, path, Some(ps), None, userProfile, store, freePorts);
    var e := Endpoints(a.value.site.bindings);
    assert PortFor(ps, freePorts, 0) == freePorts(0) && PortFor(ps, freePorts, 1) == HttpsPort;
    assert e.value == [e.value[0], e.value[1]];
  }
}

=== FILE: lists.dfy ===
/** The list operations the grains rely on: LINQ `Distinct` and `List<T>.Remove`. */
module Lists {

  ghost predicate NoDuplicates<T>(s: seq<T>) {
    forall i, j :: 0 <= i < j < |s| ==> s[i] != s[j]
  }

  /** The position of the first occurrence of `x` in `s`. */
  function FirstIndex<T(==)>(s: seq<T>, x: T): (i: nat)
    requires x in s
    ensures i < |s| && s[i] == x && x !in s[..i]
    decreases |s|
  {
    if s[0] == x then 0
    else
      assert x in s[1..] by { assert s == [s[0]] + s[1..]; }
      var i := 1 + FirstIndex(s[1..], x);
      assert s[..i] == [s[0]] + s[1..][..i - 1];
      i
  }

  /** The first occurrence is the only position holding `x` with no `x` before it. */
  lemma FirstIndexUnique<T>(s: seq<T>, x: T, k: nat)
    requires k < |s| && s[k] == x && x !in s[..k]
    ensures FirstIndex(s, x) == k
  {
  }

  /** Dropping the last element keeps the first occurrence of anything before it. */
  lemma FirstIndexInit<T>(s: seq<T>, y: T)
    requires |s| > 0 && y in s[..|s| - 1]
    ensures FirstIndex(s, y) == FirstIndex(s[..|s| - 1], y)
  {
    var p := s[..|s| - 1];
    var k := FirstIndex(p, y);
    assert s[..k] == p[..k];
    FirstIndexUnique(s, y, k);
  }

  /** Every element of `d` occurs in `s`, and `d` lists them in the order of
      their first occurrences in `s`. */
  ghost predicate InFirstOccurrenceOrder<T>(s: seq<T>, d: seq<T>) {
    && (forall k :: 0 <= k < |d| ==> d[k] in s)
    && (forall i, j :: 0 <= i < j < |d| ==> FirstIndex(s, d[i]) < FirstIndex(s, d[j]))
  }

  /** Appending an element to `s` keeps the order of first occurrences. */
  lemma OrderAfterSnoc<T>(s: seq<T>, d: seq<T>)
    requires |s| > 0 && InFirstOccurrenceOrder(s[..|s| - 1], d)
    ensures InFirstOccurrenceOrder(s, d)
  {
    var p := s[..|s| - 1];
    assert forall y :: y in p ==> y in s by {
      assert s == p + [s[|s| - 1]];
    }
    forall k | 0 <= k < |d| ensures FirstIndex(s, d[k]) == FirstIndex(p, d[k]) {
      FirstIndexInit(s, d[k]);
    }
  }

  /** An element occurring first at the end of `s` comes after all the others. */
  lemma OrderAfterNewLast<T>(s: seq<T>, d: seq<T>)
    requires |s| > 0 && InFirstOccurrenceOrder(s[..|s| - 1], d)
    requires s[|s| - 1] !in s[..|s| - 1]
    ensures InFirstOccurrenceOrder(s, d + [s[|s| - 1]])
  {
    var x := s[|s| - 1];
    OrderAfterSnoc(s, d);
    FirstIndexUnique(s, x, |s| - 1);
    var r := d + [x];
    assert forall k :: 0 <= k < |d| ==> r[k] == d[k] && FirstIndex(s, r[k]) < |s| - 1;
  }

  /** `Enumerable.Distinct`: each element once, in the order of first occurrence. */
  function Distinct<T(==,!new)>(s: seq<T>): (d: seq<T>)
    ensures NoDuplicates(d)
    ensures forall x :: x in d <==> x in s
    ensures InFirstOccurrenceOrder(s, d)
    ensures |d| <= |s|
    decreases |s|
  {
    if |s| == 0 then []
    else
      var p := s[..|s| - 1];
      var d := Distinct(p);
      var x := s[|s| - 1];
      assert forall y :: y in s <==> y in p || y == x by {
        assert s == p + [x];
      }
      if x in d then
        OrderAfterSnoc(s, d);
        d
      else
        OrderAfterNewLast(s, d);
        d + [x]
  }

  /** A duplicate-free list is its own `Distinct`. */
  lemma {:induction false} DistinctOfDistinct<T(!new)>(s: seq<T>)
    requires NoDuplicates(s)
    ensures Distinct(s) == s
    decreases |s|
  {
    if |s| > 0 {
      DistinctOfDistinct(s[..|s| - 1]);
      assert s[|s| - 1] !in s[..|s| - 1];
      assert s[..|s| - 1] + [s[|s| - 1]] == s;
    }
  }

  /** Appending one element: it is kept only if it did not occur before. */
  lemma DistinctSnoc<T(!new)>(s: seq<T>, x: T)
    ensures Distinct(s + [x]) == if x in s then Distinct(s) else Distinct(s) + [x]
  {
    assert (s + [x])[..|s + [x]| - 1] == s;
  }

  /** `List<T>.Remove(x)`: drops the first occurrence of `x`, if any. */
  function RemoveFirst<T(==,!new)>(s: seq<T>, x: T): (r: seq<T>)
    ensures x !in s ==> r == s
    ensures x in s ==> multiset(r) == multiset(s) - multiset{x}
    decreases |s|
  {
    if |s| == 0 then []
    else
      assert s == [s[0]] + s[1..];
      if s[0] == x then s[1..]
      else [s[0]] + RemoveFirst(s[1..], x)
  }

  /** The copy `Remove` drops is the first one; the rest keep their order. */
  lemma {:induction false} RemoveFirstDropsFirst<T(!new)>(s: seq<T>, x: T)
    requires x in s
    ensures RemoveFirst(s, x) == s[..FirstIndex(s, x)] + s[FirstIndex(s, x) + 1..]
    decreases |s|
  {
    if s[0] != x {
      var t := s[1..];
      assert s == [s[0]] + t;
      assert x in t;
      RemoveFirstDropsFirst(t, x);
      var k := FirstIndex(t, x);
      assert FirstIndex(s, x) == k + 1;
      calc {
        RemoveFirst(s, x);
        [s[0]] + RemoveFirst(t, x);
        [s[0]] + (t[..k] + t[k + 1..]);
        ([s[0]] + t[..k]) + t[k + 1..];
        { assert [s[0]] + t[..k] == s[..k + 1]; assert t[k + 1..] == s[k + 2..]; }
        s[..k + 1] + s[k + 2..];
      }
    }
  }

  /** `s` with every occurrence of `x` dropped, the rest in order. */
  function Without<T(==,!new)>(s: seq<T>, x: T): (r: seq<T>)
    ensures x !in r
    ensures forall y :: y != x ==> (y in r <==> y in s)
    decreases |s|
  {
    if |s| == 0 then []
    else if s[0] == x then Without(s[1..], x)
    else
      assert s == [s[0]] + s[1..];
      [s[0]] + Without(s[1..], x)
  }

  /** On a duplicate-free list, removing the first occurrence removes them all. */
  lemma {:induction false} RemoveFirstOfDistinct<T(!new)>(s: seq<T>, x: T)
    requires NoDuplicates(s)
    ensures RemoveFirst(s, x) == Without(s, x)
    ensures NoDuplicates(RemoveFirst(s, x))
    decreases |s|
  {
    if |s| > 0 {
      if s[0] == x {
        assert x !in s[1..];
        WithoutAbsent(s[1..], x);
      } else {
        RemoveFirstOfDistinct(s[1..], x);
        assert s[0] !in s[1..];
      }
    }
  }

  /** Dropping an absent element changes nothing. */
  lemma {:induction false} WithoutAbsent<T(!new)>(s: seq<T>, x: T)
    requires x !in s
    ensures Without(s, x) == s
    decreases |s|
  {
    if |s| > 0 {
      assert s[0] != x;
      WithoutAbsent(s[1..], x);
      assert s == [s[0]] + s[1..];
    }
  }
}

=== FILE: localdb.dfy ===
/** `LocalDb`: a SQL Server LocalDB database whose files live in a `Data`
    folder under a base directory. The SQL steps are abstracted: a `SqlServer`
    value says which of them succeed, and the commands issued are recorded.
    The files present on disk are a set of paths. */
module LocalDbTool {
  import opened Basics
  import opened Text
  import opened Paths

  const DatabaseDirectory := "Data"
  const V11 := "v11.0"

  /** Which SQL steps succeed: opening the `master` connection used to create
      the database, `CREATE DATABASE` itself, and the detach command. The
      detach outcome is swallowed, so it never changes what happens. */
  datatype SqlServer = SqlServer(masterOpens: bool, createSucceeds: bool, detachSucceeds: bool)

  /** A command sent to the server over a connection string. */
  datatype SqlCommand = SqlCommand(connectionString: string, text: string)

  datatype LocalDb = LocalDb(
    databaseName: string,
    version: string,
    location: string,
    outputFolder: string,
    mdfPath: string,
    logPath: string,
    connectionString: string)

  /** The database name: the given one unless it is null or blank, in which case
      one is made from the clock. Either way it is never blank. */
  function DatabaseName(given: Option<string>, ticks: nat): (name: string)
    ensures !IsNullOrWhiteSpace(Some(name))
    ensures IsNullOrWhiteSpace(given) ==> name == "sandbox_" + FormatInt(ticks)
    ensures !IsNullOrWhiteSpace(given) ==> name == given.value
  {
    if IsNullOrWhiteSpace(given) then
      var n := "sandbox_" + FormatInt(ticks);
      assert n[0] == 's' && !IsWhiteSpace(n[0]);
      n
    else given.value
  }

  /** A blank location falls back to the directory of the running assembly. */
  function BaseDirectory(location: Option<string>, assemblyDirectory: string): (d: string)
    ensures IsNullOrWhiteSpace(location) ==> d == assemblyDirectory
    ensures !IsNullOrWhiteSpace(location) ==> d == location.value
  {
    if IsNullOrWhiteSpace(location) then assemblyDirectory else location.value
  }

  function MdfFileName(name: string): string {
    name + ".mdf"
  }

  function LogFileName(name: string): string {
    name + "_log.ldf"
  }

  /** The connection string of the `master` database of a LocalDB instance. */
  function MasterConnectionString(version: string): string {
    "Data Source=(LocalDB)\\" + version + ";Initial Catalog=master;Integrated Security=True"
  }

  /** The connection string that attaches the database file. */
  function ConnectionString(version: string, mdfPath: string, name: string): string {
    "Data Source=(LocalDB)\\" + version + ";"
      + ("AttachDBFileName=" + mdfPath + ";"
      + ("Initial Catalog=" + name + ";"
      + ("Integrated Security=True" + ";")))
  }

  /** The database described by a name, version and base directory, before any SQL runs. */
  function Layout(name: string, version: string, base: string): (db: LocalDb)
    ensures db.databaseName == name && db.version == version && db.location == base
    ensures db.outputFolder == Combine(base, DatabaseDirectory)
    ensures db.mdfPath == Combine(db.outputFolder, MdfFileName(name))
    ensures db.logPath == Combine(db.outputFolder, LogFileName(name))
    ensures db.connectionString == ConnectionString(version, db.mdfPath, name)
  {
    var output := Combine(base, DatabaseDirectory);
    var mdf := Combine(output, MdfFileName(name));
    LocalDb(name, version, base, output, mdf, Combine(output, LogFileName(name)), ConnectionString(version, mdf, name))
  }

  /** The detach command: always against the `v11.0` instance; it takes the
      database to single-user mode and then detaches it, by name. */
  function DetachCommand(name: string): (c: SqlCommand)
    ensures c.connectionString == MasterConnectionString(V11)
    ensures StartsWith(c.text, "ALTER DATABASE " + name + " ")
    ensures EndsWith(c.text, "sp_detach_db '" + name + "'")
  {
    var t := "ALTER DATABASE " + name + " " + ("SET SINGLE_USER WITH ROLLBACK IMMEDIATE; exec " + ("sp_detach_db '" + name + "'"));
    assert t[..|"ALTER DATABASE " + name + " "|] == "ALTER DATABASE " + name + " ";
    SqlCommand(MasterConnectionString(V11), t)
  }

  /** The create command: against the database's own instance, naming the
      database and placing its data file at the layout's path. */
  function CreateCommand(db: LocalDb): (c: SqlCommand)
    ensures c.connectionString == MasterConnectionString(db.version)
    ensures StartsWith(c.text, "CREATE DATABASE " + db.databaseName + " ")
    ensures EndsWith(c.text, "FILENAME = '" + db.mdfPath + "')")
  {
    var head := "CREATE DATABASE " + db.databaseName + " ";
    var tail := "FILENAME = '" + db.mdfPath + "')";
    var t := head + ("ON (NAME = N'" + db.databaseName + "', ") + tail;
    assert t[..|head|] == head;
    SqlCommand(MasterConnectionString(db.version), t)
  }

  /** What `DetachDatabase` leaves behind. */
  datatype Detached = Detached(files: set<string>, command: SqlCommand)

  /** `DetachDatabase`: send the detach command, swallow whatever it does, then
      delete the data and log files if they exist. */
  function DetachDatabase(db: LocalDb, files: set<string>, sql: SqlServer): (r: Detached)
    ensures db.mdfPath !in r.files && db.logPath !in r.files
    ensures forall f :: f in files && f != db.mdfPath && f != db.logPath ==> f in r.files
    ensures r.files <= files
    ensures r.command.connectionString == MasterConnectionString(V11)
  {
    Detached(files - {db.mdfPath, db.logPath}, DetachCommand(db.databaseName))
  }

  /** `Dispose` is exactly `DetachDatabase`. */
  function Dispose(db: LocalDb, files: set<string>, sql: SqlServer): (r: Detached)
    ensures r.files == files - {db.mdfPath, db.logPath}
    ensures r.command == DetachCommand(db.databaseName)
  {
    DetachDatabase(db, files, sql)
  }

  /** What the constructor produced: the database or the exception it threw,
      the files left on disk, and the commands sent, in order. */
  datatype Created = Created(db: Result<LocalDb>, files: set<string>, commands: seq<SqlCommand>)

  /** `new LocalDb(databaseName, version, location)`: derive the name and the
      file layout, open `master` (failure escapes), detach any previous
      database of that name, deleting its files, then `CREATE DATABASE`, which
      makes the data file and its log (failure escapes). */
  function New(databaseName: Option<string>, version: string, location: Option<string>,
               ticks: nat, assemblyDirectory: string, sql: SqlServer, files: set<string>): (r: Created)
    ensures r.db.Ok? <==> sql.masterOpens && sql.createSucceeds
    ensures r.db.Ok? ==> r.db.value == Layout(DatabaseName(databaseName, ticks), version,
                                              BaseDirectory(location, assemblyDirectory))
    ensures !sql.masterOpens ==> r.files == files && r.commands == []
    ensures sql.masterOpens ==>
              var db := Layout(DatabaseName(databaseName, ticks), version, BaseDirectory(location, assemblyDirectory));
              && |r.commands| == 2
              && r.commands[0] == DetachCommand(db.databaseName)
              && r.commands[1] == CreateCommand(db)
              && (sql.createSucceeds ==> r.files == files + {db.mdfPath, db.logPath})
              && (!sql.createSucceeds ==> r.files == files - {db.mdfPath, db.logPath})
  {
    var db := Layout(DatabaseName(databaseName, ticks), version, BaseDirectory(location, assemblyDirectory));
    if !sql.masterOpens then
      Created(Err(SqlException), files, [])
    else
      var d := DetachDatabase(db, files, sql);
      var commands := [d.command, CreateCommand(db)];
      if sql.createSucceeds then Created(Ok(db), d.files + {db.mdfPath, db.logPath}, commands)
      else Created(Err(SqlException), d.files, commands)
  }

  /** The outcome of the detach command is swallowed: it changes nothing. */
  lemma DetachIgnoresSqlOutcome(db: LocalDb, files: set<string>, s1: SqlServer, s2: SqlServer)
    ensures DetachDatabase(db, files, s1) == DetachDatabase(db, files, s2)
  {
  }

  /** The detach command does not depend on the database's version. */
  lemma DetachIgnoresVersion(db: LocalDb, version: string, files: set<string>, sql: SqlServer)
    ensures DetachDatabase(db.(version := version), files, sql).command == DetachDatabase(db, files, sql).command
  {
  }

  /** The data file and the log file are two different files in the output
      folder, named after the database. */
  lemma DatabaseFilesDistinct(name: string, version: string, base: string)
    requires !IsNullOrWhiteSpace(Some(name))
    ensures var db := Layout(name, version, base);
      && db.mdfPath != db.logPath
      && EndsWith(db.mdfPath, MdfFileName(name))
      && EndsWith(db.logPath, LogFileName(name))
  {
    var db := Layout(name, version, base);
    var m, l := MdfFileName(name), LogFileName(name);
    assert 1 <= |name|;
    assert m == name + ".mdf" && l == name + "_log.ldf";
    RootedIgnoresSuffix(name, ".mdf", "_log.ldf");
    CombineInjective(db.outputFolder, m, l);
    assert |m| != |l|;
    if IsPathRooted(m) {
      assert db.mdfPath == m && db.logPath == l;
      assert m[|m| - |m|..] == m && l[|l| - |l|..] == l;
    } else {
      CombineRelative(db.outputFolder, m);
      CombineRelative(db.outputFolder, l);
    }
  }

  /* -------------------------------------------------- reading the connection string */

  /** `s` up to the first `c`, and the rest after it (all of `s` and nothing if there is no `c`). */
  function SplitAtFirst(s: string, c: char): (r: (string, string))
    decreases |s|
  {
    if |s| == 0 then ("", "")
    else if s[0] == c then ("", s[1..])
    else
      var rest := SplitAtFirst(s[1..], c);
      ([s[0]] + rest.0, rest.1)
  }

  lemma {:induction false} SplitAtFirstKey(key: string, c: char, value: string)
    requires forall i :: 0 <= i < |key| ==> key[i] != c
    ensures SplitAtFirst(key + [c] + value, c) == (key, value)
    decreases |key|
  {
    if |key| == 0 {
      assert (key + [c] + value)[1..] == value;
    } else {
      assert (key + [c] + value)[1..] == key[1..] + [c] + value;
      SplitAtFirstKey(key[1..], c, value);
      assert [key[0]] + key[1..] == key;
    }
  }

  /** The value of the first `key=value` setting in a connection string. */
  function Setting(connectionString: string, key: string): Option<string> {
    FirstSetting(Split(connectionString, ';'), key)
  }

  function FirstSetting(parts: seq<string>, key: string): Option<string>
    decreases |parts|
  {
    if |parts| == 0 then None
    else
      var kv := SplitAtFirst(parts[0], '=');
      if kv.0 == key then Some(kv.1) else FirstSetting(parts[1..], key)
  }

  predicate NoSemicolon(s: string) {
    forall i :: 0 <= i < |s| ==> s[i] != ';'
  }

  lemma NoSemicolonConcat(a: string, b: string)
    requires NoSemicolon(a) && NoSemicolon(b)
    ensures NoSemicolon(a + b)
  {
  }

  /** The four settings of the connection string, with the empty piece after the trailing separator. */
  lemma ConnectionStringPieces(version: string, mdfPath: string, name: string)
    requires NoSemicolon(version) && NoSemicolon(mdfPath) && NoSemicolon(name)
    ensures Split(ConnectionString(version, mdfPath, name), ';') ==
      ["Data Source=(LocalDB)\\" + version, "AttachDBFileName=" + mdfPath,
       "Initial Catalog=" + name, "Integrated Security=True", ""]
  {
    var p0 := "Data Source=(LocalDB)\\" + version;
    var p1 := "AttachDBFileName=" + mdfPath;
    var p2 := "Initial Catalog=" + name;
    var p3 := "Integrated Security=True";
    var t3 := p3 + ";";
    var t2 := p2 + ";" + t3;
    var t1 := p1 + ";" + t2;
    assert ConnectionString(version, mdfPath, name) == p0 + [';'] + t1;
    assert t3 == p3 + [';'] + "";
    NoSemicolonConcat("Data Source=(LocalDB)\\", version);
    NoSemicolonConcat("AttachDBFileName=", mdfPath);
    NoSemicolonConcat("Initial Catalog=", name);
    SplitPiece(p0, ';', t1);
    SplitPiece(p1, ';', t2);
    SplitPiece(p2, ';', t3);
    SplitPiece(p3, ';', "");
  }

  /** Reading the connection string back gives the instance version, the data
      file and the database name it was built from, as long as none of them
      contains the setting separator. */
  lemma ConnectionStringRoundTrip(version: string, mdfPath: string, name: string)
    requires NoSemicolon(version) && NoSemicolon(mdfPath) && NoSemicolon(name)
    ensures Setting(ConnectionString(version, mdfPath, name), "Data Source") == Some("(LocalDB)\\" + version)
    ensures Setting(ConnectionString(version, mdfPath, name), "AttachDBFileName") == Some(mdfPath)
    ensures Setting(ConnectionString(version, mdfPath, name), "Initial Catalog") == Some(name)
  {
    ConnectionStringPieces(version, mdfPath, name);
    var parts := Split(ConnectionString(version, mdfPath, name), ';');
    SplitAtFirstKey("Data Source", '=', "(LocalDB)\\" + version);
    SplitAtFirstKey("AttachDBFileName", '=', mdfPath);
    SplitAtFirstKey("Initial Catalog", '=', name);
    assert parts[0] == "Data Source" + ['='] + ("(LocalDB)\\" + version);
    assert parts[1] == "AttachDBFileName" + ['='] + mdfPath;
    assert parts[2] == "Initial Catalog" + ['='] + name;
    assert SplitAtFirst(parts[0], '=').0 != "AttachDBFileName";
    assert SplitAtFirst(parts[0], '=').0 != "Initial Catalog";
    assert SplitAtFirst(parts[1], '=').0 != "Initial Catalog";
    assert FirstSetting(parts, "AttachDBFileName") == FirstSetting(parts[1..], "AttachDBFileName");
    assert FirstSetting(parts, "Initial Catalog") == FirstSetting(parts[1..], "Initial Catalog")
        == FirstSetting(parts[2..], "Initial Catalog");
  }
}

=== FILE: localdb_grain.dfy ===
/** The LocalDb grain: set up, it creates a LocalDB database for the sandbox
    in the sandbox's directory; disposed, it detaches that database. */
module LocalDbGrains {
  import opened Basics
  import opened Text
  import Core
  import opened LocalDbTool

  /** What the grain acts on: the files on disk and the SQL commands sent so far. */
  datatype Disk = Disk(files: set<string>, sent: seq<SqlCommand>)

  /** The grain's configuration (`DatabasePrefix`, `Version`) and the database
      it created, if any. */
  datatype LocalDbGrain = LocalDbGrain(databasePrefix: Option<string>, version: string, instance: Option<LocalDb>)

  /** A fresh grain: version `v11.0`, no prefix, no database yet. */
  function NewGrain(): (g: LocalDbGrain)
    ensures g.version == V11 && g.databasePrefix.None? && g.instance.None?
    ensures IsNullOrWhiteSpace(g.databasePrefix)
  {
    LocalDbGrain(None, V11, None)
  }

  /** `Setup(sandbox)`. The name is meant to be built from the prefix, but the
      format string has two placeholders and receives one argument, so any
      non-blank prefix throws `FormatException` before a database is made.
      With a blank prefix the database takes its default name and lives in
      the sandbox's directory; a failing SQL step escapes and leaves
      `Instance` as it was. */
  function Setup<G>(g: LocalDbGrain, sb: Core.Sandbox<G>, ticks: nat, assemblyDirectory: string,
                    sql: SqlServer, w: Disk): (r: Core.Step<LocalDbGrain, Disk>)
    ensures !IsNullOrWhiteSpace(g.databasePrefix) ==> r == Core.Step(g, w, Some(FormatException))
    ensures r.error.None? <==> IsNullOrWhiteSpace(g.databasePrefix) && sql.masterOpens && sql.createSucceeds
    ensures r.error.None? ==>
              r.grain == g.(instance := Some(Layout("sandbox_" + FormatInt(ticks), g.version,
                                                    BaseDirectory(Some(sb.location), assemblyDirectory))))
    ensures r.error.None? ==>
              var db := r.grain.instance.value;
              && r.world.files == w.files + {db.mdfPath, db.logPath}
              && r.world.sent == w.sent + [DetachCommand(db.databaseName), CreateCommand(db)]
    ensures r.error.Some? ==> r.grain == g
    ensures r.error == Some(SqlException) && !sql.masterOpens ==> r.world == w
  {
    if !IsNullOrWhiteSpace(g.databasePrefix) then
      Core.Step(g, w, Some(FormatException))
    else
      var c := New(None, g.version, Some(sb.location), ticks, assemblyDirectory, sql, w.files);
      var w' := Disk(c.files, w.sent + c.commands);
      match c.db
      case Ok(db) => Core.Step(g.(instance := Some(db)), w', None)
      case Err(e) => Core.Step(g, w', Some(e))
  }

  /** `Dispose`: detach the database if one was created; never throws, and
      keeps the grain's reference to the database. */
  function Dispose(g: LocalDbGrain, sql: SqlServer, w: Disk): (r: Core.Step<LocalDbGrain, Disk>)
    ensures r.error.None? && r.grain == g
    ensures g.instance.None? ==> r.world == w
    ensures g.instance.Some? ==>
              && g.instance.value.mdfPath !in r.world.files
              && g.instance.value.logPath !in r.world.files
              && r.world.files == w.files - {g.instance.value.mdfPath, g.instance.value.logPath}
              && r.world.sent == w.sent + [DetachCommand(g.instance.value.databaseName)]
  {
    match g.instance
    case None => Core.Step(g, w, None)
    case Some(db) =>
      var d := LocalDbTool.Dispose(db, w.files, sql);
      Core.Step(g, Disk(d.files, w.sent + [d.command]), None)
  }

  /** The prefix never reaches the database name: a successful `Setup` always
      names the database after the clock. */
  lemma PrefixNeverUsed<G>(g: LocalDbGrain, sb: Core.Sandbox<G>, ticks: nat, assemblyDirectory: string,
                           sql: SqlServer, w: Disk)
    ensures var r := Setup(g, sb, ticks, assemblyDirectory, sql, w);
      r.error.None? ==> r.grain.instance.Some? && r.grain.instance.value.databaseName == "sandbox_" + FormatInt(ticks)
  {
  }

  /** Setting up puts both database files on disk; disposing then removes
      exactly those two, and sends the detach command last. */
  lemma SetupThenDispose<G>(g: LocalDbGrain, sb: Core.Sandbox<G>, ticks: nat, assemblyDirectory: string,
                            sql: SqlServer, w: Disk)
    requires IsNullOrWhiteSpace(g.databasePrefix) && sql.masterOpens && sql.createSucceeds
    ensures var s := Setup(g, sb, ticks, assemblyDirectory, sql, w);
            var d := Dispose(s.grain, sql, s.world);
            var db := s.grain.instance.value;
            && s.error.None? && d.error.None?
            && db.mdfPath in s.world.files && db.logPath in s.world.files
            && db.mdfPath !in d.world.files && db.logPath !in d.world.files
            && d.world.files == w.files - {db.mdfPath, db.logPath}
            && |d.world.sent| == |w.sent| + 3
            && d.world.sent[|d.world.sent| - 1] == DetachCommand("sandbox_" + FormatInt(ticks))
  {
  }

  /** Disposing twice leaves the same files as disposing once. */
  lemma DisposeTwice(g: LocalDbGrain, sql: SqlServer, w: Disk)
    ensures var once := Dispose(g, sql, w);
            Dispose(g, sql, once.world).world.files == once.world.files
  {
  }
}

=== FILE: paths.dfy ===
/** `System.IO.Path.Combine` with its two-argument, Windows-separator behaviour. */
module Paths {
  import opened Text

  const DirectorySeparator: char := '\\'
  const AltDirectorySeparator: char := '/'
  const VolumeSeparator: char := ':'

  predicate IsSeparator(c: char) {
    c == DirectorySeparator || c == AltDirectorySeparator || c == VolumeSeparator
  }

  /** `Path.IsPathRooted`: starts with a directory separator, or has a drive letter. */
  predicate IsPathRooted(p: string) {
    || (1 <= |p| && (p[0] == DirectorySeparator || p[0] == AltDirectorySeparator))
    || (2 <= |p| && p[1] == VolumeSeparator)
  }

  /** What `Combine` puts in front of a relative second part. */
  function Directory(a: string): (d: string)
    ensures StartsWith(d, a)
  {
    if |a| == 0 || IsSeparator(a[|a| - 1]) then a else a + [DirectorySeparator]
  }

  /** `Path.Combine(a, b)`: an empty part yields the other, a rooted `b` wins,
      otherwise `b` is appended after a separator unless `a` already ends in one. */
  function Combine(a: string, b: string): (r: string)
    ensures |b| > 0 && !IsPathRooted(b) ==> r == Directory(a) + b
    ensures IsPathRooted(b) ==> r == b
    ensures |b| == 0 ==> r == a
  {
    if |b| == 0 then a
    else if |a| == 0 then b
    else if IsPathRooted(b) then b
    else if IsSeparator(a[|a| - 1]) then a + b
    else a + [DirectorySeparator] + b
  }

  /** A relative part combined under `a` lies under `a` and ends with the part. */
  lemma CombineRelative(a: string, b: string)
    requires |b| > 0 && !IsPathRooted(b)
    ensures StartsWith(Combine(a, b), a)
    ensures EndsWith(Combine(a, b), b)
  {
    var d := Directory(a);
    assert (d + b)[..|a|] == d[..|a|];
    assert (d + b)[|d + b| - |b|..] == b;
  }

  /** Under a fixed directory, distinct parts of the same kind give distinct paths. */
  lemma CombineInjective(a: string, b1: string, b2: string)
    requires |b1| > 0 && |b2| > 0
    requires IsPathRooted(b1) == IsPathRooted(b2)
    ensures Combine(a, b1) == Combine(a, b2) ==> b1 == b2
  {
    if Combine(a, b1) == Combine(a, b2) && !IsPathRooted(b1) {
      var d := Directory(a);
      assert b1 == (d + b1)[|d|..];
      assert b2 == (d + b2)[|d|..];
    }
  }

  /** Whether a name is rooted does not depend on what follows it, provided
      that does not start with a volume separator. */
  lemma RootedIgnoresSuffix(x: string, s1: string, s2: string)
    requires 1 <= |x| && 1 <= |s1| && 1 <= |s2|
    requires s1[0] != VolumeSeparator && s2[0] != VolumeSeparator
    ensures IsPathRooted(x + s1) == IsPathRooted(x + s2)
  {
    if |x| == 1 {
      assert (x + s1)[1] == s1[0];
      assert (x + s2)[1] == s2[0];
    } else {
      assert (x + s1)[1] == x[1] == (x + s2)[1];
    }
  }
}

=== FILE: registration.dfy ===
/** The two grains plugged into the sandbox: the registration helpers
    `UseLocalDb` and `UseIisExpress`, which store a fresh grain under a fixed
    name and then let a callback configure it, and the dispatch of the
    sandbox's `Setup`/`Dispose` calls to the grain's own code. */
module Registration {
  import opened Basics
  import opened Text
  import Core
  import LocalDbTool
  import LocalDbGrains
  import IisExpressGrains

  /** Every grain a sandbox can hold. */
  datatype AnyGrain = LocalDb(db: LocalDbGrains.LocalDbGrain) | IisExpress(iis: IisExpressGrains.IisExpressGrain)

  /** The state both grains act on. */
  datatype World = World(disk: LocalDbGrains.Disk, web: IisExpressGrains.Web)

  /** What the grains read from outside: the clock, the assembly directory,
      the SQL server's behaviour, the user's profile directory, the free ports
      and the process id IIS Express reports once it is running. */
  datatype Environment = Environment(
    ticks: nat,
    assemblyDirectory: string,
    sql: LocalDbTool.SqlServer,
    userProfile: string,
    freePorts: nat -> nat,
    ready: Option<nat>)

  const LocalDbName := "LocalDb"
  const IisExpressName := "IisExpress"

  /** `grain.Setup(sandbox)`, dispatched on the grain's kind. */
  function SetupGrain(env: Environment, g: AnyGrain, sb: Core.Sandbox<AnyGrain>, w: World): (r: Core.Step<AnyGrain, World>)
    ensures g.LocalDb? ==> r.grain.LocalDb? && r.world.web == w.web
    ensures g.IisExpress? ==> r.grain.IisExpress? && r.world.disk == w.disk
  {
    match g
    case LocalDb(d) =>
      var s := LocalDbGrains.Setup(d, sb, env.ticks, env.assemblyDirectory, env.sql, w.disk);
      Core.Step(LocalDb(s.grain), w.(disk := s.world), s.error)
    case IisExpress(i) =>
      var s := IisExpressGrains.Setup(i, sb, env.userProfile, env.freePorts, env.ready, w.web);
      Core.Step(IisExpress(s.grain), w.(web := s.world), s.error)
  }

  /** `grain.Dispose()`, dispatched on the grain's kind. */
  function DisposeGrain(env: Environment, g: AnyGrain, w: World): (r: Core.Step<AnyGrain, World>)
    ensures g.LocalDb? ==> r.grain == g && r.error.None? && r.world.web == w.web
    ensures g.IisExpress? ==> r.grain.IisExpress? && r.world.disk == w.disk
    ensures g.IisExpress? ==> (r.error.Some? <==> g.iis.instance.None?)
  {
    match g
    case LocalDb(d) =>
      var s := LocalDbGrains.Dispose(d, env.sql, w.disk);
      Core.Step(LocalDb(s.grain), w.(disk := s.world), s.error)
    case IisExpress(i) =>
      var s := IisExpressGrains.Dispose(i, env.userProfile, w.web);
      Core.Step(IisExpress(s.grain), w.(web := s.world), s.error)
  }

  function Setups(env: Environment): (AnyGrain, Core.Sandbox<AnyGrain>, World) -> Core.Step<AnyGrain, World> {
    (g, sb, w) => SetupGrain(env, g, sb, w)
  }

  function Disposals(env: Environment): (AnyGrain, World) -> Core.Step<AnyGrain, World> {
    (g, w) => DisposeGrain(env, g, w)
  }

  /* ------------------------------------------------------------ registration */

  /** What a configuration callback did to the grain it was handed: the grain
      as the callback left it (the callback works in place, so one that throws
      may leave it half-configured) and the exception it threw, if any. */
  datatype Configured<T> = Configured(grain: T, error: Option<Exception>)

  /** The sandbox after a registration, and the exception that escaped from the
      configuration callback, if any. */
  datatype Registered = Registered(sandbox: Core.Sandbox<AnyGrain>, error: Option<Exception>)

  /** Running an optional callback on a fresh grain; no callback leaves the
      grain as it is. */
  function Configure<T>(config: Option<T -> Configured<T>>, g: T): Configured<T> {
    match config
    case None => Configured(g, None)
    case Some(f) => f(g)
  }

  /** `UseLocalDb(config)`: a fresh grain is stored under `LocalDb` before the
      callback runs on that same grain, so the sandbox holds the grain as the
      callback left it even when the callback throws, and the callback's
      exception escapes. */
  function UseLocalDb(sb: Core.Sandbox<AnyGrain>,
                      config: Option<LocalDbGrains.LocalDbGrain -> Configured<LocalDbGrains.LocalDbGrain>>): (r: Registered)
    ensures config.None? ==>
              && r.error.None?
              && Core.Lookup(r.sandbox.properties, LocalDbName) == Some(Core.Grain(LocalDb(LocalDbGrains.NewGrain())))
    ensures config.Some? ==>
              var c := config.value(LocalDbGrains.NewGrain());
              && r.error == c.error
              && Core.Lookup(r.sandbox.properties, LocalDbName) == Some(Core.Grain(LocalDb(c.grain)))
    ensures forall n :: n != LocalDbName ==> Core.Lookup(r.sandbox.properties, n) == Core.Lookup(sb.properties, n)
    ensures LocalDbName !in Core.Names(sb.properties) ==>
              |r.sandbox.properties| == |sb.properties| + 1 && r.sandbox.properties[..|sb.properties|] == sb.properties
    ensures r.sandbox.id == sb.id && r.sandbox.description == sb.description && r.sandbox.location == sb.location
  {
    var c := Configure(config, LocalDbGrains.NewGrain());
    Registered(Core.Attach(sb, LocalDbName, Core.Grain(LocalDb(c.grain))), c.error)
  }

  /** `UseIisExpress(config)`: the same, under `IisExpress`. */
  function UseIisExpress(sb: Core.Sandbox<AnyGrain>,
                         config: Option<IisExpressGrains.IisExpressGrain -> Configured<IisExpressGrains.IisExpressGrain>>): (r: Registered)
    ensures config.None? ==>
              && r.error.None?
              && Core.Lookup(r.sandbox.properties, IisExpressName) == Some(Core.Grain(IisExpress(IisExpressGrains.NewGrain())))
    ensures config.Some? ==>
              var c := config.value(IisExpressGrains.NewGrain());
              && r.error == c.error
              && Core.Lookup(r.sandbox.properties, IisExpressName) == Some(Core.Grain(IisExpress(c.grain)))
    ensures forall n :: n != IisExpressName ==> Core.Lookup(r.sandbox.properties, n) == Core.Lookup(sb.properties, n)
    ensures IisExpressName !in Core.Names(sb.properties) ==>
              |r.sandbox.properties| == |sb.properties| + 1 && r.sandbox.properties[..|sb.properties|] == sb.properties
    ensures r.sandbox.id == sb.id && r.sandbox.description == sb.description && r.sandbox.location == sb.location
  {
    var c := Configure(config, IisExpressGrains.NewGrain());
    Registered(Core.Attach(sb, IisExpressName, Core.Grain(IisExpress(c.grain))), c.error)
  }

  /** `UseIisExpress(source)`: the configuration only sets `Source` and never throws. */
  function UseIisExpressWithSource(sb: Core.Sandbox<AnyGrain>, source: Option<string>): (r: Registered)
    ensures r.error.None?
    ensures Core.Lookup(r.sandbox.properties, IisExpressName)
         == Some(Core.Grain(IisExpress(IisExpressGrains.NewGrain().(source := source))))
    ensures forall n :: n != IisExpressName ==> Core.Lookup(r.sandbox.properties, n) == Core.Lookup(sb.properties, n)
  {
    UseIisExpress(sb, Some((g: IisExpressGrains.IisExpressGrain) => Configured(g.(source := source), None)))
  }

  /* --------------------------------------------------------------- scenarios */

  /** A sandbox's location is never blank: it ends with the `sandbox_` prefix. */
  lemma LocationNotBlank(ticks: nat, tempPath: string, randomFileName: string)
    ensures !IsNullOrWhiteSpace(Some(Core.New<AnyGrain>(ticks, tempPath, randomFileName).location))
  {
    var loc := Core.New<AnyGrain>(ticks, tempPath, randomFileName).location;
    var suffix := Core.LocationPrefix + randomFileName;
    assert EndsWith(loc, suffix);
    var k := |loc| - |suffix|;
    assert loc[k..] == suffix;
    assert suffix[0] == 's';
    assert loc[k] == loc[k..][0] == 's';
    assert !IsWhiteSpace(loc[k]);
  }

  /** Registration alone sets nothing up: the grain has no database until `Play`. */
  lemma RegistrationAloneHasNoInstance(sb: Core.Sandbox<AnyGrain>)
    ensures var v := Core.Lookup(UseLocalDb(sb, None).sandbox.properties, LocalDbName);
            v.Some? && v.value.Grain? && v.value.grain.LocalDb? && v.value.grain.db.instance.None?
  {
  }

  /** Playing a new sandbox with only a default LocalDb grain, against a SQL
      server that accepts everything, creates the database `sandbox_<ticks>`
      in the sandbox's directory and puts its data and log files on disk. */
  lemma PlayDefaultLocalDb(ticks: nat, tempPath: string, randomFileName: string, env: Environment, w: World)
    requires env.sql.masterOpens && env.sql.createSucceeds
    ensures var sb := UseLocalDb(Core.New<AnyGrain>(ticks, tempPath, randomFileName), None).sandbox;
            var p := Core.Play(sb, false, w, Setups(env));
            && p.run.error.None? && p.createdDirectory
            && |p.run.sandbox.properties| == 1
            && p.run.sandbox.properties[0].0 == LocalDbName
            && p.run.sandbox.properties[0].1.Grain?
            && p.run.sandbox.properties[0].1.grain.LocalDb?
            && p.run.sandbox.properties[0].1.grain.db.instance
               == Some(LocalDbTool.Layout("sandbox_" + FormatInt(env.ticks), LocalDbTool.V11, sb.location))
            && var db := LocalDbTool.Layout("sandbox_" + FormatInt(env.ticks), LocalDbTool.V11, sb.location);
               p.run.world.disk.files == w.disk.files + {db.mdfPath, db.logPath}
  {
    var sb0 := Core.New<AnyGrain>(ticks, tempPath, randomFileName);
    var sb := UseLocalDb(sb0, None).sandbox;
    var g := LocalDb(LocalDbGrains.NewGrain());
    assert sb.properties == [(LocalDbName, Core.Grain(g))] by {
      assert Core.Names(sb0.properties) == [];
    }
    LocationNotBlank(ticks, tempPath, randomFileName);
    var db := LocalDbTool.Layout("sandbox_" + FormatInt(env.ticks), LocalDbTool.V11, sb.location);
    var s := SetupGrain(env, g, sb, w);
    assert s.error.None? && s.grain == LocalDb(LocalDbGrains.NewGrain().(instance := Some(db)));
    var sb' := sb.(properties := [(LocalDbName, Core.Grain(s.grain))]);
    assert Setups(env)(g, sb, w) == s;
    Core.FirstGrainRun(sb, w, Setups(env));
  }

  /** Disposing a sandbox whose only attribute is a LocalDb grain holding a
      database, with a first deletion that succeeds: the grain's `Dispose`
      does not throw, both database files are gone and the directory is deleted. */
  lemma DisposeLocalDbOnly(sb: Core.Sandbox<AnyGrain>, env: Environment, w: World, delete: nat -> Core.DeleteOutcome)
    requires |sb.properties| == 1 && sb.properties[0].1.Grain? && sb.properties[0].1.grain.LocalDb?
    requires sb.properties[0].1.grain.db.instance.Some?
    requires delete(0) == Core.Deleted
    ensures var d := Core.Dispose(sb, true, w, Disposals(env), delete);
            var db := sb.properties[0].1.grain.db.instance.value;
            && d.run.error.None?
            && d.deletion == Some(Core.DeleteReport(1, true)) && !d.directoryExists
            && db.mdfPath !in d.run.world.disk.files && db.logPath !in d.run.world.disk.files
  {
    var g := sb.properties[0].1.grain;
    var op := Core.IgnoreSandbox(Disposals(env));
    assert op(g, sb, w) == DisposeGrain(env, g, w);
    Core.FirstGrainRun(sb, w, op);
    Core.FirstDeleteSucceeds(delete);
  }

  /** Playing and then disposing a sandbox with only a default LocalDb grain,
      against a SQL server that accepts everything and a first deletion that
      succeeds: playing puts both database files on disk, and disposing
      leaves neither them nor the sandbox's directory. */
  lemma PlayThenDisposeDefaultLocalDb(ticks: nat, tempPath: string, randomFileName: string, env: Environment, w: World,
                                      delete: nat -> Core.DeleteOutcome)
    requires env.sql.masterOpens && env.sql.createSucceeds
    requires delete(0) == Core.Deleted
    ensures var sb := UseLocalDb(Core.New<AnyGrain>(ticks, tempPath, randomFileName), None).sandbox;
            var p := Core.Play(sb, false, w, Setups(env));
            var d := Core.Dispose(p.run.sandbox, p.directoryExists, p.run.world, Disposals(env), delete);
            var db := LocalDbTool.Layout("sandbox_" + FormatInt(env.ticks), LocalDbTool.V11, sb.location);
            && p.run.error.None? && d.run.error.None? && !d.directoryExists
            && db.mdfPath in p.run.world.disk.files && db.logPath in p.run.world.disk.files
            && db.mdfPath !in d.run.world.disk.files && db.logPath !in d.run.world.disk.files
  {
    var sb := UseLocalDb(Core.New<AnyGrain>(ticks, tempPath, randomFileName), None).sandbox;
    PlayDefaultLocalDb(ticks, tempPath, randomFileName, env, w);
    var p := Core.Play(sb, false, w, Setups(env));
    DisposeLocalDbOnly(p.run.sandbox, env, p.run.world, delete);
  }

  /** The callback `sb.UseLocalDb((s, g) => g.DatabasePrefix = prefix)`. */
  function SetPrefix(prefix: string): LocalDbGrains.LocalDbGrain -> Configured<LocalDbGrains.LocalDbGrain> {
    (g: LocalDbGrains.LocalDbGrain) => Configured(g.(databasePrefix := Some(prefix)), None)
  }

  /** A database prefix makes `Play` fail with a format error: the directory is
      created, but the grain is left as registered, with no database. */
  lemma PlayWithPrefixFails(ticks: nat, tempPath: string, randomFileName: string, prefix: string, env: Environment, w: World)
    requires !IsNullOrWhiteSpace(Some(prefix))
    ensures var sb := UseLocalDb(Core.New<AnyGrain>(ticks, tempPath, randomFileName), Some(SetPrefix(prefix))).sandbox;
            var p := Core.Play(sb, false, w, Setups(env));
            && p.run.error == Some(FormatException) && p.directoryExists
            && Core.Lookup(p.run.sandbox.properties, LocalDbName)
               == Some(Core.Grain(LocalDb(LocalDbGrains.NewGrain().(databasePrefix := Some(prefix)))))
            && p.run.world == w
  {
    var sb0 := Core.New<AnyGrain>(ticks, tempPath, randomFileName);
    var g := LocalDb(LocalDbGrains.NewGrain().(databasePrefix := Some(prefix)));
    assert SetPrefix(prefix)(LocalDbGrains.NewGrain()).grain == g.db;
    var sb := UseLocalDb(sb0, Some(SetPrefix(prefix))).sandbox;
    assert sb.properties == [(LocalDbName, Core.Grain(g))] by {
      assert Core.Names(sb0.properties) == [];
    }
    assert Setups(env)(g, sb, w) == Core.Step(g, w, Some(FormatException));
    Core.FirstGrainRun(sb, w, Setups(env));
  }

  /** Registering IisExpress and then LocalDb on an empty sandbox stores the
      two fresh grains in that order. */
  lemma IisExpressThenLocalDb(sb0: Core.Sandbox<AnyGrain>)
    requires sb0.properties == []
    ensures UseLocalDb(UseIisExpress(sb0, None).sandbox, None).sandbox.properties
         == [(IisExpressName, Core.Grain(IisExpress(IisExpressGrains.NewGrain()))),
             (LocalDbName, Core.Grain(LocalDb(LocalDbGrains.NewGrain())))]
  {
  }

  /** Registering LocalDb twice overwrites the first registration in place:
      the sandbox holds one LocalDb grain, as the second callback left it,
      whether or not either callback threw. */
  lemma UseLocalDbTwice(sb0: Core.Sandbox<AnyGrain>,
                        first: Option<LocalDbGrains.LocalDbGrain -> Configured<LocalDbGrains.LocalDbGrain>>,
                        second: Option<LocalDbGrains.LocalDbGrain -> Configured<LocalDbGrains.LocalDbGrain>>)
    requires sb0.properties == []
    ensures Core.Grains(UseLocalDb(UseLocalDb(sb0, first).sandbox, second).sandbox)
         == [LocalDb(Configure(second, LocalDbGrains.NewGrain()).grain)]
  {
  }

  /** A callback that throws still leaves the fresh grain registered: on a
      sandbox without LocalDb, the grain as the callback left it joins the
      end of `Grains`, and the callback's exception escapes. */
  lemma ThrowingCallbackKeepsGrain(sb: Core.Sandbox<AnyGrain>,
                                   config: LocalDbGrains.LocalDbGrain -> Configured<LocalDbGrains.LocalDbGrain>)
    requires LocalDbName !in Core.Names(sb.properties)
    ensures var r := UseLocalDb(sb, Some(config));
            var c := config(LocalDbGrains.NewGrain());
            && r.error == c.error
            && Core.Grains(r.sandbox) == Core.Grains(sb) + [LocalDb(c.grain)]
  {
    Core.GrainsAfterAttach(sb, LocalDbName, Core.Grain(LocalDb(config(LocalDbGrains.NewGrain()).grain)));
  }

  /** Disposing a sandbox whose first grain is an IisExpress grain that was
      never set up: its `Dispose` throws `NullReferenceException`, no later
      grain is disposed, the directory is not deleted and nothing changes. */
  lemma DisposeStopsAtUnsetIisExpress(sb: Core.Sandbox<AnyGrain>, directoryExists: bool, env: Environment, w: World,
                                      delete: nat -> Core.DeleteOutcome)
    requires |sb.properties| >= 1 && sb.properties[0].1.Grain?
    requires sb.properties[0].1.grain.IisExpress? && sb.properties[0].1.grain.iis.instance.None?
    ensures var d := Core.Dispose(sb, directoryExists, w, Disposals(env), delete);
            && d.run.error == Some(NullReferenceException)
            && d.run.called == [sb.properties[0].1.grain]
            && d.deletion.None? && d.directoryExists == directoryExists
            && d.run.sandbox.properties == sb.properties
            && d.run.world == w
  {
    var gi := sb.properties[0].1.grain;
    var op := Core.IgnoreSandbox(Disposals(env));
    assert op(gi, sb, w) == Core.Step(gi, w, Some(NullReferenceException));
    Core.FirstGrainRun(sb, w, op);
    assert sb.properties[0 := (sb.properties[0].0, Core.Grain(gi))] == sb.properties;
  }

  /** The scenario of a sandbox given IisExpress and then LocalDb, disposed
      without being played: the IisExpress grain throws and the LocalDb grain
      is never disposed. */
  lemma DisposeUnsetIisExpress(ticks: nat, tempPath: string, randomFileName: string, directoryExists: bool,
                               env: Environment, w: World, delete: nat -> Core.DeleteOutcome)
    ensures var sb := UseLocalDb(UseIisExpress(Core.New<AnyGrain>(ticks, tempPath, randomFileName), None).sandbox, None).sandbox;
            var d := Core.Dispose(sb, directoryExists, w, Disposals(env), delete);
            && d.run.error == Some(NullReferenceException)
            && d.run.called == [IisExpress(IisExpressGrains.NewGrain())]
            && d.deletion.None?
            && d.run.sandbox.properties[1].1 == Core.Grain(LocalDb(LocalDbGrains.NewGrain()))
  {
    var sb := UseLocalDb(UseIisExpress(Core.New<AnyGrain>(ticks, tempPath, randomFileName), None).sandbox, None).sandbox;
    IisExpressThenLocalDb(Core.New<AnyGrain>(ticks, tempPath, randomFileName));
    DisposeStopsAtUnsetIisExpress(sb, directoryExists, env, w, delete);
  }
}

=== FILE: sandbox.dfy ===
/** The sandbox: an identity, a private temporary directory, an ordered bag of
    named attributes, and the lifecycle that sets up and disposes the grains
    stored in that bag.

    The model is generic in the grain type `G` and in the state `W` of the
    world the grains act on; a grain's `Setup` and `Dispose` are passed in as
    functions returning the grain's new state, the new world and the exception
    they threw, if any. The directory is a boolean: does it exist on disk. */
module Core {
  import opened Basics
  import opened Text
  import opened Paths

  /** A value stored in the attribute bag: a grain, or any other object. */
  datatype Value<G> = Grain(grain: G) | Plain(data: string)

  datatype Sandbox<G> = Sandbox(
    id: int,
    description: string,
    location: string,
    properties: seq<(string, Value<G>)>)

  /* ---------------------------------------------------------------- identity */

  const LocationPrefix := "sandbox_"

  /** Construction reads the clock (`ticks`), the temporary-files directory and a
      random file name, and touches nothing on disk. */
  function New<G>(ticks: nat, tempPath: string, randomFileName: string): (sb: Sandbox<G>)
    ensures sb.id == ticks && sb.properties == []
    ensures sb.description == "Sandbox <" + FormatInt(ticks) + ">"
    ensures StartsWith(sb.location, tempPath)
    ensures EndsWith(sb.location, LocationPrefix + randomFileName)
  {
    var name := LocationPrefix + randomFileName;
    assert name[0] == 's' && name[1] == 'a';
    CombineRelative(tempPath, name);
    Sandbox(ticks, "Sandbox <" + FormatInt(ticks) + ">", Combine(tempPath, name), [])
  }

  /** Two sandboxes made under the same temporary directory share a location
      only if they drew the same random file name. */
  lemma LocationsUnique<G>(t1: nat, t2: nat, tempPath: string, r1: string, r2: string)
    ensures New<G>(t1, tempPath, r1).location == New<G>(t2, tempPath, r2).location ==> r1 == r2
  {
    var n1, n2 := LocationPrefix + r1, LocationPrefix + r2;
    assert n1[0] == 's' && n1[1] == 'a' && n2[0] == 's' && n2[1] == 'a';
    CombineInjective(tempPath, n1, n2);
    if n1 == n2 {
      assert r1 == n1[|LocationPrefix|..] == n2[|LocationPrefix|..] == r2;
    }
  }

  /** Sandboxes created at distinct clock readings get distinct default descriptions. */
  lemma DescriptionsUnique<G>(t1: nat, t2: nat, tempPath: string, r1: string, r2: string)
    ensures New<G>(t1, tempPath, r1).description == New<G>(t2, tempPath, r2).description ==> t1 == t2
  {
    var d1, d2 := New<G>(t1, tempPath, r1).description, New<G>(t2, tempPath, r2).description;
    if d1 == d2 {
      assert FormatInt(t1) == d1[9..|d1| - 1];
      assert FormatInt(t2) == d2[9..|d2| - 1];
      FormatIntInjective(t1, t2);
    }
  }

  /** Fluent setter: replaces the description and keeps everything else. */
  function SetDescription<G>(sb: Sandbox<G>, description: string): (r: Sandbox<G>)
    ensures r.description == description
    ensures r.id == sb.id && r.location == sb.location && r.properties == sb.properties
  {
    sb.(description := description)
  }

  /* ------------------------------------------------------- the attribute bag */

  function Names<G>(p: seq<(string, Value<G>)>): (ns: seq<string>)
    ensures |ns| == |p|
  {
    seq(|p|, i requires 0 <= i < |p| => p[i].0)
  }

  ghost predicate UniqueNames<G>(p: seq<(string, Value<G>)>) {
    forall i, j :: 0 <= i < j < |p| ==> p[i].0 != p[j].0
  }

  /** The position of the first entry named `name`, or the bag's length. */
  function IndexOf<G>(p: seq<(string, Value<G>)>, name: string): (i: nat)
    ensures i <= |p|
    ensures forall k :: 0 <= k < i ==> p[k].0 != name
    ensures i < |p| ==> p[i].0 == name
    decreases |p|
  {
    if |p| == 0 then 0
    else if p[0].0 == name then 0
    else 1 + IndexOf(p[1..], name)
  }

  lemma NamesHasIndex<G>(p: seq<(string, Value<G>)>, name: string)
    ensures name in Names(p) <==> IndexOf(p, name) < |p|
  {
    if name in Names(p) {
      var k :| 0 <= k < |p| && Names(p)[k] == name;
      assert p[k].0 == name;
    }
    var i := IndexOf(p, name);
    if i < |p| {
      assert Names(p)[i] == name;
    }
  }

  /** The value stored under `name`, if any. */
  function Lookup<G>(p: seq<(string, Value<G>)>, name: string): (v: Option<Value<G>>)
    ensures v.None? <==> name !in Names(p)
    ensures v.Some? ==> exists i :: 0 <= i < |p| && p[i] == (name, v.value)
  {
    NamesHasIndex(p, name);
    var i := IndexOf(p, name);
    if i < |p| then Some(p[i].1) else None
  }

  /** Storing `v` under `name` (a dictionary indexer): an existing entry is
      overwritten in place, a new name is appended to the iteration order. */
  function Put<G>(p: seq<(string, Value<G>)>, name: string, v: Value<G>): (r: seq<(string, Value<G>)>)
    ensures name in Names(p) ==> |r| == |p| && Names(r) == Names(p)
    ensures name !in Names(p) ==> r == p + [(name, v)]
    ensures forall i :: 0 <= i < |p| && p[i].0 != name ==> r[i] == p[i]
  {
    NamesHasIndex(p, name);
    var i := IndexOf(p, name);
    if i < |p| then
      var r := p[i := (name, v)];
      assert Names(r) == Names(p);
      r
    else p + [(name, v)]
  }

  /** Bags with the same names in the same order index names alike. */
  lemma {:induction false} IndexOfSameNames<G>(p: seq<(string, Value<G>)>, q: seq<(string, Value<G>)>, name: string)
    requires |p| == |q| && forall i :: 0 <= i < |p| ==> p[i].0 == q[i].0
    ensures IndexOf(p, name) == IndexOf(q, name)
    decreases |p|
  {
    if |p| > 0 {
      IndexOfSameNames(p[1..], q[1..], name);
    }
  }

  /** After `Put`, `name` maps to `v` and every other name to what it mapped to before. */
  lemma LookupAfterPut<G>(p: seq<(string, Value<G>)>, name: string, v: Value<G>, n: string)
    ensures Lookup(Put(p, name, v), name) == Some(v)
    ensures n != name ==> Lookup(Put(p, name, v), n) == Lookup(p, n)
  {
    var r := Put(p, name, v);
    NamesHasIndex(p, name);
    var i := IndexOf(p, name);
    if i < |p| {
      assert forall k :: 0 <= k < |p| ==> r[k].0 == p[k].0;
      IndexOfSameNames(p, r, name);
      IndexOfSameNames(p, r, n);
    } else {
      IndexOfAppend(p, (name, v), name);
      IndexOfAppend(p, (name, v), n);
    }
  }

  lemma {:induction false} IndexOfAppend<G>(p: seq<(string, Value<G>)>, e: (string, Value<G>), name: string)
    ensures IndexOf(p, name) < |p| ==> IndexOf(p + [e], name) == IndexOf(p, name)
    ensures IndexOf(p, name) == |p| ==> IndexOf(p + [e], name) == if e.0 == name then |p| else |p| + 1
    decreases |p|
  {
    if |p| > 0 {
      assert (p + [e])[1..] == p[1..] + [e];
      IndexOfAppend(p[1..], e, name);
    }
  }

  /** `Put` keeps the names unique. */
  lemma PutKeepsNamesUnique<G>(p: seq<(string, Value<G>)>, name: string, v: Value<G>)
    requires UniqueNames(p)
    ensures UniqueNames(Put(p, name, v))
  {
    var r := Put(p, name, v);
    NamesHasIndex(p, name);
    if name in Names(p) {
      assert forall k :: 0 <= k < |p| ==> r[k].0 == Names(r)[k] == Names(p)[k] == p[k].0;
    } else {
      assert forall k :: 0 <= k < |p| ==> p[k].0 != name by {
        forall k | 0 <= k < |p| ensures p[k].0 != name {
          assert Names(p)[k] == p[k].0;
        }
      }
    }
  }

  /** `sandbox.<name> = value` through the dynamic property bag: `name` now holds
      `v`, every other name holds what it held, and the iteration order keeps
      existing names in place and puts a new name last. */
  function Attach<G>(sb: Sandbox<G>, name: string, v: Value<G>): (r: Sandbox<G>)
    ensures Lookup(r.properties, name) == Some(v)
    ensures forall n :: n != name ==> Lookup(r.properties, n) == Lookup(sb.properties, n)
    ensures name in Names(sb.properties) ==> Names(r.properties) == Names(sb.properties)
    ensures name !in Names(sb.properties) ==> r.properties == sb.properties + [(name, v)]
    ensures UniqueNames(sb.properties) ==> UniqueNames(r.properties)
    ensures r.id == sb.id && r.description == sb.description && r.location == sb.location
  {
    var p := Put(sb.properties, name, v);
    LookupAfterPut(sb.properties, name, v, name);
    assert forall n :: n != name ==> Lookup(p, n) == Lookup(sb.properties, n) by {
      forall n | n != name ensures Lookup(p, n) == Lookup(sb.properties, n) {
        LookupAfterPut(sb.properties, name, v, n);
      }
    }
    assert UniqueNames(sb.properties) ==> UniqueNames(p) by {
      if UniqueNames(sb.properties) { PutKeepsNamesUnique(sb.properties, name, v); }
    }
    sb.(properties := p)
  }

  /* ----------------------------------------------------------------- grains */

  /** The grain values held in slots `i` to `j - 1`, in bag order; every other
      value is skipped. */
  function GrainsIn<G>(p: seq<(string, Value<G>)>, i: nat, j: nat): (gs: seq<G>)
    requires i <= j <= |p|
    ensures |gs| <= j - i
    decreases j - i
  {
    if i == j then []
    else (if p[i].1.Grain? then [p[i].1.grain] else []) + GrainsIn(p, i + 1, j)
  }

  /** The grain values of a whole bag. */
  function GrainsOf<G>(p: seq<(string, Value<G>)>): seq<G> {
    GrainsIn(p, 0, |p|)
  }

  /** Every value of `gs` is a grain held by some attribute of `p`, and every
      grain held by an attribute of `p` is in `gs`. */
  ghost predicate HoldsTheGrainsOf<G>(gs: seq<G>, p: seq<(string, Value<G>)>) {
    && (forall k :: 0 <= k < |gs| ==> exists m :: 0 <= m < |p| && p[m].1 == Grain(gs[k]))
    && (forall m :: 0 <= m < |p| && p[m].1.Grain? ==> p[m].1.grain in gs)
  }

  /** The `Grains` view of a sandbox, recomputed from the bag on every read:
      the attribute values that are grains, and only those. */
  function Grains<G>(sb: Sandbox<G>): (gs: seq<G>)
    ensures |gs| <= |sb.properties|
    ensures HoldsTheGrainsOf(gs, sb.properties)
  {
    GrainsInMembers(sb.properties, 0, |sb.properties|);
    GrainsOf(sb.properties)
  }

  /** Exactly the grain values of the range appear in the view. */
  lemma {:induction false} GrainsInMembers<G>(p: seq<(string, Value<G>)>, i: nat, j: nat)
    requires i <= j <= |p|
    ensures forall k :: 0 <= k < |GrainsIn(p, i, j)| ==> exists m :: i <= m < j && p[m].1 == Grain(GrainsIn(p, i, j)[k])
    ensures forall m :: i <= m < j && p[m].1.Grain? ==> p[m].1.grain in GrainsIn(p, i, j)
    decreases j - i
  {
    if i < j {
      GrainsInMembers(p, i + 1, j);
      var rest := GrainsIn(p, i + 1, j);
      var gs := GrainsIn(p, i, j);
      forall k | 0 <= k < |gs| ensures exists m :: i <= m < j && p[m].1 == Grain(gs[k]) {
        if p[i].1.Grain? && k == 0 {
          assert p[i].1 == Grain(gs[k]);
        } else {
          var k' := if p[i].1.Grain? then k - 1 else k;
          assert gs[k] == rest[k'];
          var m :| i + 1 <= m < j && p[m].1 == Grain(rest[k']);
          assert p[m].1 == Grain(gs[k]);
        }
      }
    } else {
      assert GrainsIn(p, i, j) == [];
    }
  }

  /** The view of a range is the view of its two halves. */
  lemma {:induction false} GrainsInSplit<G>(p: seq<(string, Value<G>)>, i: nat, k: nat, j: nat)
    requires i <= k <= j <= |p|
    ensures GrainsIn(p, i, j) == GrainsIn(p, i, k) + GrainsIn(p, k, j)
    decreases k - i
  {
    if i < k {
      GrainsInSplit(p, i + 1, k, j);
    }
  }

  /** The view of a range depends only on the slots in it. */
  lemma {:induction false} GrainsInAgree<G>(p: seq<(string, Value<G>)>, q: seq<(string, Value<G>)>, i: nat, j: nat)
    requires i <= j <= |p| && j <= |q|
    requires forall m :: i <= m < j ==> p[m] == q[m]
    ensures GrainsIn(p, i, j) == GrainsIn(q, i, j)
    decreases j - i
  {
    if i < j {
      assert p[i] == q[i];
      GrainsInAgree(p, q, i + 1, j);
      var head := if p[i].1.Grain? then [p[i].1.grain] else [];
      assert GrainsIn(p, i, j) == head + GrainsIn(p, i + 1, j);
      assert GrainsIn(q, i, j) == head + GrainsIn(q, i + 1, j);
    }
  }


  /** Attaching under a new name: a grain joins the end of `Grains`, any other
      value never shows up there. */
  lemma GrainsAfterAttach<G>(sb: Sandbox<G>, name: string, v: Value<G>)
    requires name !in Names(sb.properties)
    ensures v.Grain? ==> Grains(Attach(sb, name, v)) == Grains(sb) + [v.grain]
    ensures v.Plain? ==> Grains(Attach(sb, name, v)) == Grains(sb)
  {
    var p := sb.properties;
    var q := Attach(sb, name, v).properties;
    assert q == p + [(name, v)];
    GrainsInSplit(q, 0, |p|, |q|);
    GrainsInAgree(p, q, 0, |p|);
  }

  /** Attaching under an existing name overwrites that entry in place: its
      grain, if any, leaves `Grains`, the new value takes its position if it
      is a grain, and every other grain keeps its place. */
  lemma GrainsAfterOverwrite<G>(sb: Sandbox<G>, name: string, v: Value<G>)
    requires name in Names(sb.properties)
    ensures var p := sb.properties;
            var k := IndexOf(p, name);
            && k < |p|
            && Grains(Attach(sb, name, v)) ==
                 GrainsIn(p, 0, k) + (if v.Grain? then [v.grain] else []) + GrainsIn(p, k + 1, |p|)
  {
    var p := sb.properties;
    NamesHasIndex(p, name);
    var k := IndexOf(p, name);
    assert Attach(sb, name, v).properties == p[k := (name, v)];
    GrainsInReplace(p, k, (name, v));
  }

  /** Replacing slot `k` replaces its contribution to the view and nothing else. */
  lemma GrainsInReplace<G>(p: seq<(string, Value<G>)>, k: nat, e: (string, Value<G>))
    requires k < |p|
    ensures GrainsOf(p[k := e]) ==
              GrainsIn(p, 0, k) + (if e.1.Grain? then [e.1.grain] else []) + GrainsIn(p, k + 1, |p|)
  {
    var q := p[k := e];
    var x := if e.1.Grain? then [e.1.grain] else [];
    assert GrainsIn(q, k, k + 1) == x;
    calc {
      GrainsOf(q);
      { GrainsInSplit(q, 0, k, |q|); }
      GrainsIn(q, 0, k) + GrainsIn(q, k, |q|);
      { GrainsInSplit(q, k, k + 1, |q|); }
      GrainsIn(q, 0, k) + (x + GrainsIn(q, k + 1, |q|));
      { GrainsInAgree(p, q, 0, k); GrainsInAgree(p, q, k + 1, |p|); }
      GrainsIn(p, 0, k) + (x + GrainsIn(p, k + 1, |p|));
      GrainsIn(p, 0, k) + x + GrainsIn(p, k + 1, |p|);
    }
  }

  /** `idx` lists the positions of the grain slots in `i` to `j - 1`: every
      grain slot once, in increasing order, and nothing else. */
  ghost predicate AreGrainSlots<G>(p: seq<(string, Value<G>)>, i: nat, j: nat, idx: seq<nat>)
    requires i <= j <= |p|
  {
    && (forall k :: 0 <= k < |idx| ==> i <= idx[k] < j && p[idx[k]].1.Grain?)
    && (forall k, l :: 0 <= k < l < |idx| ==> idx[k] < idx[l])
    && (forall m :: i <= m < j && p[m].1.Grain? ==> m in idx)
  }

  /** The positions of the grain slots in `i` to `j - 1`. */
  function GrainSlots<G>(p: seq<(string, Value<G>)>, i: nat, j: nat): (idx: seq<nat>)
    requires i <= j <= |p|
    ensures AreGrainSlots(p, i, j, idx)
    decreases j - i
  {
    if i == j then []
    else
      var rest := GrainSlots(p, i + 1, j);
      GrainSlotsStep(p, i, j, rest);
      if p[i].1.Grain? then [i] + rest else rest
  }

  /** Extending the grain slots of `i + 1` to `j - 1` by slot `i`. */
  lemma GrainSlotsStep<G>(p: seq<(string, Value<G>)>, i: nat, j: nat, rest: seq<nat>)
    requires i < j <= |p|
    requires AreGrainSlots(p, i + 1, j, rest)
    ensures AreGrainSlots(p, i, j, if p[i].1.Grain? then [i] + rest else rest)
  {
    if p[i].1.Grain? {
      var idx := [i] + rest;
      assert forall k :: 0 < k < |idx| ==> idx[k] == rest[k - 1];
      forall m | i <= m < j && p[m].1.Grain? ensures m in idx {
        if m == i { assert idx[0] == m; } else { assert m in rest; }
      }
    }
  }

  /** The view of a range lists, for each grain slot in increasing order, the
      grain that slot holds. */
  lemma {:induction false} GrainsInAtSlots<G>(p: seq<(string, Value<G>)>, i: nat, j: nat)
    requires i <= j <= |p|
    ensures var gs := GrainsIn(p, i, j);
            var idx := GrainSlots(p, i, j);
            && |gs| == |idx|
            && forall k :: 0 <= k < |idx| ==> gs[k] == p[idx[k]].1.grain
    decreases j - i
  {
    if i < j {
      GrainsInAtSlots(p, i + 1, j);
      var gs, rest := GrainsIn(p, i + 1, j), GrainSlots(p, i + 1, j);
      if p[i].1.Grain? {
        assert GrainsIn(p, i, j) == [p[i].1.grain] + gs;
        assert GrainSlots(p, i, j) == [i] + rest;
      } else {
        assert GrainsIn(p, i, j) == gs;
        assert GrainSlots(p, i, j) == rest;
      }
    }
  }

  /** `Grains` holds one entry per grain slot of the bag, in bag order: its
      `k`-th grain is the one held by the `k`-th grain slot. */
  lemma GrainsInSlotOrder<G>(sb: Sandbox<G>)
    ensures var idx := GrainSlots(sb.properties, 0, |sb.properties|);
            && |Grains(sb)| == |idx|
            && forall k :: 0 <= k < |idx| ==> Grains(sb)[k] == sb.properties[idx[k]].1.grain
  {
    GrainsInAtSlots(sb.properties, 0, |sb.properties|);
  }

  /** Two bags with the same names in which the same positions hold grains and
      every other value is unchanged. */
  ghost predicate SameShape<G>(p: seq<(string, Value<G>)>, q: seq<(string, Value<G>)>) {
    && |p| == |q|
    && forall i :: 0 <= i < |p| ==>
         && p[i].0 == q[i].0
         && p[i].1.Grain? == q[i].1.Grain?
         && (p[i].1.Plain? ==> q[i] == p[i])
  }

  lemma {:induction false} SameShapeSameGrainCount<G>(p: seq<(string, Value<G>)>, q: seq<(string, Value<G>)>, i: nat, j: nat)
    requires SameShape(p, q) && i <= j <= |p|
    ensures |GrainsIn(p, i, j)| == |GrainsIn(q, i, j)|
    decreases j - i
  {
    if i < j {
      SameShapeSameGrainCount(p, q, i + 1, j);
    }
  }

  /* ------------------------------------------------------ running the grains */

  /** What one grain operation returned: the grain's new state, the new world,
      and the exception it threw, if any. */
  datatype Step<G, W> = Step(grain: G, world: W, error: Option<Exception>)

  /** The result of calling an operation on the grains in order: the sandbox with
      every called grain's new state written back, the world, the grains called
      (as they were when called), the bag index of the grain that threw
      (the bag's length if none did), and the exception. */
  datatype Run<G, W> = Run(sandbox: Sandbox<G>, world: W, called: seq<G>, stop: nat, error: Option<Exception>)

  /** `Grains.ToList().ForEach(op)` from bag index `i` on: a snapshot of the grains
      is walked in order, each called grain's new state is written back to its
      slot, and the first exception stops the walk and escapes. */
  function ForEachGrain<G, W>(sb: Sandbox<G>, w: W, op: (G, Sandbox<G>, W) -> Step<G, W>, i: nat): (r: Run<G, W>)
    requires i <= |sb.properties|
    ensures r.sandbox.id == sb.id && r.sandbox.description == sb.description && r.sandbox.location == sb.location
    ensures SameShape(sb.properties, r.sandbox.properties)
    ensures i <= r.stop <= |sb.properties|
    ensures r.error.None? ==> r.stop == |sb.properties|
    ensures r.error.Some? ==> r.stop < |sb.properties| && sb.properties[r.stop].1.Grain?
    decreases |sb.properties| - i
  {
    if i == |sb.properties| then
      Run(sb, w, [], i, None)
    else
      var p := sb.properties;
      match p[i].1
      case Plain(_) =>
        ForEachGrain(sb, w, op, i + 1)
      case Grain(g) =>
        var s := op(g, sb, w);
        var sb' := sb.(properties := p[i := (p[i].0, Grain(s.grain))]);
        if s.error.Some? then
          Run(sb', s.world, [g], i, s.error)
        else
          var r := ForEachGrain(sb', s.world, op, i + 1);
          Run(r.sandbox, r.world, [g] + r.called, r.stop, r.error)
  }

  /** The walk leaves every slot before its start and after the grain that threw as it was. */
  lemma {:induction false} ForEachGrainUntouched<G, W>(sb: Sandbox<G>, w: W, op: (G, Sandbox<G>, W) -> Step<G, W>, i: nat)
    requires i <= |sb.properties|
    ensures var r := ForEachGrain(sb, w, op, i);
      && (forall k :: 0 <= k < i ==> r.sandbox.properties[k] == sb.properties[k])
      && (forall k :: r.stop < k < |sb.properties| ==> r.sandbox.properties[k] == sb.properties[k])
    decreases |sb.properties| - i
  {
    if i < |sb.properties| {
      var p := sb.properties;
      match p[i].1
      case Plain(_) =>
        ForEachGrainUntouched(sb, w, op, i + 1);
      case Grain(g) =>
        var s := op(g, sb, w);
        var sb' := sb.(properties := p[i := (p[i].0, Grain(s.grain))]);
        if s.error.Some? {
          assert ForEachGrain(sb, w, op, i) == Run(sb', s.world, [g], i, s.error);
        } else {
          ForEachGrainUntouched(sb', s.world, op, i + 1);
          var rest := ForEachGrain(sb', s.world, op, i + 1);
          assert ForEachGrain(sb, w, op, i) == Run(rest.sandbox, rest.world, [g] + rest.called, rest.stop, rest.error);
        }
    }
  }

  /** The grains the walk calls when none throws: all grains from index `i` on. */
  lemma {:induction false} ForEachGrainCallsAll<G, W>(sb: Sandbox<G>, w: W, op: (G, Sandbox<G>, W) -> Step<G, W>, i: nat)
    requires i <= |sb.properties|
    ensures var r := ForEachGrain(sb, w, op, i);
            r.error.None? ==> r.called == GrainsIn(sb.properties, i, |sb.properties|)
    decreases |sb.properties| - i
  {
    if i < |sb.properties| {
      var p := sb.properties;
      match p[i].1
      case Plain(_) =>
        ForEachGrainCallsAll(sb, w, op, i + 1);
      case Grain(g) =>
        var s := op(g, sb, w);
        var sb' := sb.(properties := p[i := (p[i].0, Grain(s.grain))]);
        if s.error.None? {
          ForEachGrainCallsAll(sb', s.world, op, i + 1);
          GrainsInAgree(p, sb'.properties, i + 1, |p|);
        }
    }
  }

  /** The grains the walk calls when one throws: those up to and including it. */
  lemma {:induction false} ForEachGrainCallsUpTo<G, W>(sb: Sandbox<G>, w: W, op: (G, Sandbox<G>, W) -> Step<G, W>, i: nat)
    requires i <= |sb.properties|
    ensures var r := ForEachGrain(sb, w, op, i);
            r.error.Some? ==> r.called == GrainsIn(sb.properties, i, r.stop + 1)
    decreases |sb.properties| - i
  {
    if i < |sb.properties| {
      var p := sb.properties;
      match p[i].1
      case Plain(_) =>
        ForEachGrainCallsUpTo(sb, w, op, i + 1);
      case Grain(g) =>
        var s := op(g, sb, w);
        var sb' := sb.(properties := p[i := (p[i].0, Grain(s.grain))]);
        if s.error.None? {
          ForEachGrainCallsUpTo(sb', s.world, op, i + 1);
          var r := ForEachGrain(sb', s.world, op, i + 1);
          if r.error.Some? {
            GrainsInAgree(p, sb'.properties, i + 1, r.stop + 1);
          }
        }
    }
  }

  /** The walk from the start of a bag whose first slot holds a grain: that
      grain is called first and its new state written back; if it threw, the
      walk ends there. */
  lemma FirstGrainRun<G, W>(sb: Sandbox<G>, w: W, op: (G, Sandbox<G>, W) -> Step<G, W>)
    requires |sb.properties| >= 1 && sb.properties[0].1.Grain?
    ensures var g := sb.properties[0].1.grain;
            var s := op(g, sb, w);
            var sb' := sb.(properties := sb.properties[0 := (sb.properties[0].0, Grain(s.grain))]);
            var rest := ForEachGrain(sb', s.world, op, 1);
            && (s.error.Some? ==> ForEachGrain(sb, w, op, 0) == Run(sb', s.world, [g], 0, s.error))
            && (s.error.None? ==> ForEachGrain(sb, w, op, 0) == Run(rest.sandbox, rest.world, [g] + rest.called, rest.stop, rest.error))
            && (s.error.None? && |sb.properties| == 1 ==> ForEachGrain(sb, w, op, 0) == Run(sb', s.world, [g], 1, None))
  {
  }

  /** The grains called form a non-empty prefix of `all`: the walk reached the
      grain that threw and no further. */
  ghost predicate StoppedEarly<G>(called: seq<G>, all: seq<G>) {
    0 < |called| <= |all| && called == all[..|called|]
  }

  /** From the whole bag, when a grain threw: the grains called are a prefix
      of `Grains` ending at that grain, and no grain after it is touched. */
  lemma RunFromStartStopped<G, W>(sb: Sandbox<G>, w: W, op: (G, Sandbox<G>, W) -> Step<G, W>)
    requires ForEachGrain(sb, w, op, 0).error.Some?
    ensures var r := ForEachGrain(sb, w, op, 0);
      && |Grains(r.sandbox)| == |Grains(sb)|
      && StoppedEarly(r.called, Grains(sb))
      && Grains(r.sandbox)[|r.called|..] == Grains(sb)[|r.called|..]
  {
    var r := ForEachGrain(sb, w, op, 0);
    var p, q := sb.properties, r.sandbox.properties;
    var s := r.stop;
    SameShapeSameGrainCount(p, q, 0, |p|);
    ForEachGrainCallsUpTo(sb, w, op, 0);
    ForEachGrainUntouched(sb, w, op, 0);
    GrainsInSplit(p, 0, s + 1, |p|);
    GrainsInSplit(q, 0, s + 1, |p|);
    GrainsInAgree(p, q, s + 1, |p|);
    SameShapeSameGrainCount(p, q, 0, s + 1);
    GrainsInSplit(p, 0, s, s + 1);
    assert GrainsIn(p, s, s + 1) == [p[s].1.grain];
  }

  /** From the whole bag: the grains called are the full `Grains` view on
      success, a prefix of it ending at the grain that threw otherwise, and no
      grain after that one is touched. */
  lemma RunFromStart<G, W>(sb: Sandbox<G>, w: W, op: (G, Sandbox<G>, W) -> Step<G, W>)
    ensures var r := ForEachGrain(sb, w, op, 0);
      && |Grains(r.sandbox)| == |Grains(sb)|
      && (r.error.None? ==> r.called == Grains(sb))
      && (r.error.Some? ==>
            && StoppedEarly(r.called, Grains(sb))
            && Grains(r.sandbox)[|r.called|..] == Grains(sb)[|r.called|..])
  {
    var r := ForEachGrain(sb, w, op, 0);
    ForEachGrainCallsAll(sb, w, op, 0);
    SameShapeSameGrainCount(sb.properties, r.sandbox.properties, 0, |sb.properties|);
    if r.error.Some? {
      RunFromStartStopped(sb, w, op);
    }
  }

  /* --------------------------------------------------------------- lifecycle */

  /** The outcome of `Play`. */
  datatype Played<G, W> = Played(run: Run<G, W>, createdDirectory: bool, directoryExists: bool)

  /** `Play`: create the directory unless it exists, then call `Setup(this)` on
      each grain of the `Grains` snapshot in order; an exception from a grain's
      `Setup` escapes, leaving earlier grains set up and later ones untouched. */
  function Play<G, W>(sb: Sandbox<G>, directoryExists: bool, w: W, setup: (G, Sandbox<G>, W) -> Step<G, W>): (r: Played<G, W>)
    ensures r.directoryExists
    ensures r.createdDirectory <==> !directoryExists
    ensures r.run.sandbox.id == sb.id && r.run.sandbox.location == sb.location
    ensures r.run.sandbox.description == sb.description
    ensures Names(r.run.sandbox.properties) == Names(sb.properties)
    ensures |Grains(r.run.sandbox)| == |Grains(sb)|
    ensures r.run.error.None? ==> r.run.called == Grains(sb)
    ensures r.run.error.Some? ==> StoppedEarly(r.run.called, Grains(sb))
    ensures r.run.error.Some? ==> Grains(r.run.sandbox)[|r.run.called|..] == Grains(sb)[|r.run.called|..]
  {
    var run := ForEachGrain(sb, w, setup, 0);
    RunFromStart(sb, w, setup);
    Played(run, !directoryExists, true)
  }

  /** The outcome of `Dispose`: the grain walk, the report of the directory
      deletion (absent when a grain's exception skipped it), and whether the
      directory still exists. */
  datatype Disposed<G, W> = Disposed(run: Run<G, W>, deletion: Option<DeleteReport>, directoryExists: bool)

  /** `Directory.Delete` on a missing directory throws `DirectoryNotFoundException`,
      an `IOException`. */
  function Missing(attempt: nat): DeleteOutcome {
    IoFailure
  }

  /** A grain's `Dispose` takes no sandbox: the walk's operation ignores it. */
  function IgnoreSandbox<G, W>(dispose: (G, W) -> Step<G, W>): (G, Sandbox<G>, W) -> Step<G, W> {
    (g, s, w') => dispose(g, w')
  }

  /** `Dispose`: call `Dispose` on each grain of the `Grains` snapshot in order,
      then delete the directory. There is no containment: the first grain whose
      `Dispose` throws ends the walk, and the exception escapes before deletion. */
  function Dispose<G, W>(sb: Sandbox<G>, directoryExists: bool, w: W,
                         dispose: (G, W) -> Step<G, W>, delete: nat -> DeleteOutcome): (r: Disposed<G, W>)
    ensures r.run.sandbox.id == sb.id && r.run.sandbox.location == sb.location
    ensures Names(r.run.sandbox.properties) == Names(sb.properties)
    ensures r.run.error.None? ==>
              && r.run.called == Grains(sb)
              && r.deletion.Some?
              && 1 <= r.deletion.value.attempts <= 3
              && (r.directoryExists <==> directoryExists && !r.deletion.value.deleted)
    ensures r.run.error.None? && directoryExists ==> StopsAt(delete, r.deletion.value)
    ensures r.run.error.None? && !directoryExists ==> r.deletion == Some(DeleteReport(2, false))
    ensures r.run.error.Some? ==>
              && StoppedEarly(r.run.called, Grains(sb))
              && r.deletion.None?
              && r.directoryExists == directoryExists
  {
    var run := DisposeGrains(sb, w, dispose);
    if run.error.Some? then
      Disposed(run, None, directoryExists)
    else
      var report := DeleteDirectory(directoryExists, delete);
      Disposed(run, Some(report), directoryExists && !report.deleted)
  }

  /** The grain half of `Dispose`: the walk over the `Grains` snapshot. */
  function DisposeGrains<G, W>(sb: Sandbox<G>, w: W, dispose: (G, W) -> Step<G, W>): (r: Run<G, W>)
    ensures r == ForEachGrain(sb, w, IgnoreSandbox(dispose), 0)
    ensures r.sandbox.id == sb.id && r.sandbox.location == sb.location
    ensures Names(r.sandbox.properties) == Names(sb.properties)
    ensures r.error.None? ==> r.called == Grains(sb)
    ensures r.error.Some? ==> StoppedEarly(r.called, Grains(sb))
  {
    RunFromStart(sb, w, IgnoreSandbox(dispose));
    ForEachGrain(sb, w, IgnoreSandbox(dispose), 0)
  }

  /** `TryDeleteFilesAndFoldersRecursively(Location)`: an existing directory
      follows the stopping rule; a missing one fails twice. */
  function DeleteDirectory(directoryExists: bool, delete: nat -> DeleteOutcome): (r: DeleteReport)
    ensures 1 <= r.attempts <= 3
    ensures directoryExists ==> StopsAt(delete, r)
    ensures !directoryExists ==> r == DeleteReport(2, false)
  {
    AllIoFailuresGiveTwoAttempts(Missing);
    DeleteRun(if directoryExists then delete else Missing)
  }

  /** With grains that never throw and a first deletion attempt that succeeds,
      play-then-dispose sets up and disposes every grain exactly once, in
      attachment order, and leaves no directory behind. */
  lemma PlayThenDispose<G, W>(sb: Sandbox<G>, directoryExists: bool, w: W,
                              setup: (G, Sandbox<G>, W) -> Step<G, W>, dispose: (G, W) -> Step<G, W>,
                              delete: nat -> DeleteOutcome)
    requires forall g, s, w' :: setup(g, s, w').error.None?
    requires forall g, w' :: dispose(g, w').error.None?
    requires delete(0) == Deleted
    ensures var p := Play(sb, directoryExists, w, setup);
            var d := Dispose(p.run.sandbox, p.directoryExists, p.run.world, dispose, delete);
            && p.run.error.None? && p.run.called == Grains(sb)
            && d.run.error.None? && d.run.called == Grains(p.run.sandbox)
            && |d.run.called| == |Grains(sb)|
            && d.deletion == Some(DeleteReport(1, true))
            && !d.directoryExists
  {
    var p := Play(sb, directoryExists, w, setup);
    NoFailureRunsAll(sb, w, setup, 0);
    var d := Dispose(p.run.sandbox, p.directoryExists, p.run.world, dispose, delete);
    NoFailureRunsAll(p.run.sandbox, p.run.world, IgnoreSandbox(dispose), 0);
    assert StopsAt(delete, d.deletion.value);
  }

  /** A walk whose operation never throws reaches the end of the bag. */
  lemma {:induction false} NoFailureRunsAll<G, W>(sb: Sandbox<G>, w: W, op: (G, Sandbox<G>, W) -> Step<G, W>, i: nat)
    requires i <= |sb.properties|
    requires forall g, s, w' :: op(g, s, w').error.None?
    ensures ForEachGrain(sb, w, op, i).error.None?
    decreases |sb.properties| - i
  {
    if i < |sb.properties| {
      var p := sb.properties;
      match p[i].1
      case Plain(_) => NoFailureRunsAll(sb, w, op, i + 1);
      case Grain(g) =>
        var s := op(g, sb, w);
        NoFailureRunsAll(sb.(properties := p[i := (p[i].0, Grain(s.grain))]), s.world, op, i + 1);
    }
  }

  /** None of `gs` throws. */
  ghost predicate NoneThrow<G>(gs: seq<G>, throws: G -> bool) {
    forall k :: 0 <= k < |gs| ==> !throws(gs[k])
  }

  /** When whether a grain's operation throws depends on the grain alone, the
      walk fails exactly when some grain from index `i` on throws, and then the
      last grain called is the first that throws: there is no containment. */
  lemma {:induction false} ThrowerStops<G, W>(sb: Sandbox<G>, w: W, op: (G, Sandbox<G>, W) -> Step<G, W>,
                                              throws: G -> bool, i: nat)
    requires i <= |sb.properties|
    requires forall g, s, w' :: op(g, s, w').error.Some? <==> throws(g)
    ensures var r := ForEachGrain(sb, w, op, i);
      && (r.error.None? <==> NoneThrow(GrainsIn(sb.properties, i, |sb.properties|), throws))
      && (r.error.None? ==> NoneThrow(r.called, throws))
      && (r.error.Some? ==>
            && 0 < |r.called|
            && throws(r.called[|r.called| - 1])
            && NoneThrow(r.called[..|r.called| - 1], throws))
    decreases |sb.properties| - i
  {
    var p := sb.properties;
    if i < |p| {
      match p[i].1
      case Plain(_) =>
        ThrowerStops(sb, w, op, throws, i + 1);
        assert GrainsIn(p, i, |p|) == GrainsIn(p, i + 1, |p|);
      case Grain(g) =>
        var s := op(g, sb, w);
        var sb' := sb.(properties := p[i := (p[i].0, Grain(s.grain))]);
        var gs := GrainsIn(p, i + 1, |p|);
        assert GrainsIn(p, i, |p|) == [g] + gs;
        NoneThrowCons(g, gs, throws);
        if s.error.Some? {
          assert ForEachGrain(sb, w, op, i) == Run(sb', s.world, [g], i, s.error);
        } else {
          ThrowerStops(sb', s.world, op, throws, i + 1);
          GrainsInAgree(p, sb'.properties, i + 1, |p|);
          var rest := ForEachGrain(sb', s.world, op, i + 1);
          assert ForEachGrain(sb, w, op, i) == Run(rest.sandbox, rest.world, [g] + rest.called, rest.stop, rest.error);
          NoneThrowCons(g, rest.called, throws);
          if rest.error.Some? {
            NoneThrowConsInit(g, rest.called, throws);
          }
        }
    }
  }

  lemma NoneThrowCons<G>(g: G, gs: seq<G>, throws: G -> bool)
    ensures NoneThrow([g] + gs, throws) <==> !throws(g) && NoneThrow(gs, throws)
  {
    var c := [g] + gs;
    if !throws(g) && NoneThrow(gs, throws) {
      forall k | 0 <= k < |c| ensures !throws(c[k]) {
        if k > 0 { assert c[k] == gs[k - 1]; }
      }
    }
    if NoneThrow(c, throws) {
      assert c[0] == g;
      forall k | 0 <= k < |gs| ensures !throws(gs[k]) {
        assert gs[k] == c[k + 1];
      }
    }
  }

  lemma NoneThrowConsInit<G>(g: G, gs: seq<G>, throws: G -> bool)
    requires 0 < |gs| && !throws(g)
    ensures (NoneThrow(([g] + gs)[..|gs|], throws) <==> NoneThrow(gs[..|gs| - 1], throws))
    ensures ([g] + gs)[|gs|] == gs[|gs| - 1]
  {
    assert ([g] + gs)[..|gs|] == [g] + gs[..|gs| - 1];
    NoneThrowCons(g, gs[..|gs| - 1], throws);
  }

  /** `Play` without containment: set-up fails exactly when some grain's
      `Setup` throws, and then the grains set up are those of `Grains` up to
      and including the first that throws. */
  lemma PlayStopsAtFirstThrower<G, W>(sb: Sandbox<G>, directoryExists: bool, w: W,
                                      setup: (G, Sandbox<G>, W) -> Step<G, W>, throws: G -> bool)
    requires forall g, s, w' :: setup(g, s, w').error.Some? <==> throws(g)
    ensures var r := Play(sb, directoryExists, w, setup).run;
      && (r.error.Some? <==> !NoneThrow(Grains(sb), throws))
      && (r.error.Some? ==>
            && StoppedEarly(r.called, Grains(sb))
            && throws(r.called[|r.called| - 1])
            && NoneThrow(r.called[..|r.called| - 1], throws))
  {
    ThrowerStops(sb, w, setup, throws, 0);
  }

  /** `Dispose` without containment: a grain whose `Dispose` throws ends the
      walk there, so the later grains are not disposed and the directory is
      neither deleted nor touched; when no grain throws, every grain is
      disposed and deletion runs. */
  lemma DisposeStopsAtFirstThrower<G, W>(sb: Sandbox<G>, directoryExists: bool, w: W,
                                         dispose: (G, W) -> Step<G, W>, delete: nat -> DeleteOutcome,
                                         throws: G -> bool)
    requires forall g, w' :: dispose(g, w').error.Some? <==> throws(g)
    ensures var d := Dispose(sb, directoryExists, w, dispose, delete);
      && (d.run.error.Some? <==> !NoneThrow(Grains(sb), throws))
      && (d.run.error.Some? ==>
            && StoppedEarly(d.run.called, Grains(sb))
            && throws(d.run.called[|d.run.called| - 1])
            && NoneThrow(d.run.called[..|d.run.called| - 1], throws)
            && d.deletion.None?
            && d.directoryExists == directoryExists)
      && (NoneThrow(Grains(sb), throws) ==> d.run.called == Grains(sb) && d.deletion.Some?)
  {
    var op := IgnoreSandbox(dispose);
    assert forall g, s, w' :: op(g, s, w').error.Some? <==> throws(g) by {
      forall g, s, w' ensures op(g, s, w').error.Some? <==> throws(g) {
        assert op(g, s, w') == dispose(g, w');
      }
    }
    ThrowerStops(sb, w, op, throws, 0);
  }

  /* ------------------------------------------------ deleting the directory */

  /** What one `Directory.Delete(directory, true)` call did. */
  datatype DeleteOutcome = Deleted | IoFailure | AccessDenied

  /** How many delete calls were made and whether the last one succeeded. */
  datatype DeleteReport = DeleteReport(attempts: nat, deleted: bool)

  /** How far one failed attempt advances the loop counter: an `IOException`
      advances it in the handler and again in the loop header. */
  function Cost(o: DeleteOutcome): nat {
    match o
    case Deleted => 0
    case IoFailure => 2
    case AccessDenied => 1
  }

  /** The counter after the first `n` attempts. */
  function Spent(outcome: nat -> DeleteOutcome, n: nat): nat {
    if n == 0 then 0 else Spent(outcome, n - 1) + Cost(outcome(n - 1))
  }

  /** The loop stops at the first successful delete, or after the failure that
      brings the counter to 3 or more, whichever comes first. */
  ghost predicate StopsAt(outcome: nat -> DeleteOutcome, r: DeleteReport) {
    && 1 <= r.attempts
    && (forall k :: 0 <= k < r.attempts - 1 ==> outcome(k) != Deleted)
    && (r.deleted <==> outcome(r.attempts - 1) == Deleted)
    && Spent(outcome, r.attempts - 1) < 3
    && (!r.deleted ==> Spent(outcome, r.attempts) >= 3)
  }

  lemma {:induction false} SpentAtLeastAttempts(outcome: nat -> DeleteOutcome, n: nat)
    requires forall k :: 0 <= k < n ==> outcome(k) != Deleted
    ensures Spent(outcome, n) >= n
  {
    if n > 0 {
      SpentAtLeastAttempts(outcome, n - 1);
    }
  }

  lemma {:induction false} SpentMonotonic(outcome: nat -> DeleteOutcome, m: nat, n: nat)
    requires m <= n
    ensures Spent(outcome, m) <= Spent(outcome, n)
    decreases n - m
  {
    if m < n {
      SpentMonotonic(outcome, m, n - 1);
    }
  }

  /** The deletion loop from attempt `attempt` on, all earlier attempts having failed. */
  function DeleteFrom(outcome: nat -> DeleteOutcome, attempt: nat): (r: DeleteReport)
    requires Spent(outcome, attempt) < 3
    requires forall k :: 0 <= k < attempt ==> outcome(k) != Deleted
    ensures attempt < r.attempts
    ensures StopsAt(outcome, r)
    decreases 3 - Spent(outcome, attempt)
  {
    if outcome(attempt) == Deleted then DeleteReport(attempt + 1, true)
    else if Spent(outcome, attempt + 1) >= 3 then DeleteReport(attempt + 1, false)
    else DeleteFrom(outcome, attempt + 1)
  }

  /** The report of the whole deletion loop: never more than 3 attempts. */
  function DeleteRun(outcome: nat -> DeleteOutcome): (r: DeleteReport)
    ensures StopsAt(outcome, r)
    ensures 1 <= r.attempts <= 3
  {
    var r := DeleteFrom(outcome, 0);
    SpentAtLeastAttempts(outcome, r.attempts - 1);
    r
  }

  /** The stopping rule determines the report. */
  lemma StopsAtUnique(outcome: nat -> DeleteOutcome, r1: DeleteReport, r2: DeleteReport)
    requires StopsAt(outcome, r1) && StopsAt(outcome, r2)
    ensures r1 == r2
  {
    if r1.attempts < r2.attempts {
      SpentMonotonic(outcome, r1.attempts, r2.attempts - 1);
    } else if r2.attempts < r1.attempts {
      SpentMonotonic(outcome, r2.attempts, r1.attempts - 1);
    }
  }

  /** `TryDeleteFilesAndFoldersRecursively`: up to three `Directory.Delete` calls,
      returning after the first that succeeds. Both exception kinds are swallowed;
      an `IOException` advances the counter twice. */
  method TryDeleteFilesAndFoldersRecursively(outcome: nat -> DeleteOutcome) returns (r: DeleteReport)
    ensures StopsAt(outcome, r)
    ensures 1 <= r.attempts <= 3
    ensures r == DeleteRun(outcome)
  {
    var count := 0;
    var attempts := 0;
    while count < 3
      invariant count == Spent(outcome, attempts)
      invariant forall k :: 0 <= k < attempts ==> outcome(k) != Deleted
      invariant attempts <= count <= 4
      invariant attempts > 0 ==> Spent(outcome, attempts - 1) < 3
      decreases 4 - count
    {
      match outcome(attempts) {
        case Deleted =>
          r := DeleteReport(attempts + 1, true);
          StopsAtUnique(outcome, r, DeleteRun(outcome));
          return;
        case IoFailure =>
          count := count + 1;
        case AccessDenied =>
      }
      attempts := attempts + 1;
      count := count + 1;
    }
    r := DeleteReport(attempts, false);
    StopsAtUnique(outcome, r, DeleteRun(outcome));
  }

  /** Repeated I/O failures (a locked file, or a directory that is not there)
      get only two attempts. */
  lemma AllIoFailuresGiveTwoAttempts(outcome: nat -> DeleteOutcome)
    requires forall k :: outcome(k) == IoFailure
    ensures DeleteRun(outcome) == DeleteReport(2, false)
  {
    assert Spent(outcome, 1) == 2;
    assert Spent(outcome, 2) == 4;
    StopsAtUnique(outcome, DeleteRun(outcome), DeleteReport(2, false));
  }

  /** Access denials are swallowed and retried, three attempts in all. */
  lemma AllAccessDeniedGiveThreeAttempts(outcome: nat -> DeleteOutcome)
    requires forall k :: outcome(k) == AccessDenied
    ensures DeleteRun(outcome) == DeleteReport(3, false)
  {
    assert Spent(outcome, 1) == 1;
    assert Spent(outcome, 2) == 2;
    assert Spent(outcome, 3) == 3;
    StopsAtUnique(outcome, DeleteRun(outcome), DeleteReport(3, false));
  }

  /** Two transient failures end the loop: a third call that would have
      succeeded is never made and the directory stays. */
  lemma TwoIoFailuresGiveUp(outcome: nat -> DeleteOutcome)
    requires outcome(0) == IoFailure && outcome(1) == IoFailure && outcome(2) == Deleted
    ensures DeleteRun(outcome) == DeleteReport(2, false)
  {
    assert Spent(outcome, 1) == 2;
    assert Spent(outcome, 2) == 4;
    StopsAtUnique(outcome, DeleteRun(outcome), DeleteReport(2, false));
  }

  /** Two access denials followed by a success delete the directory on the third call. */
  lemma AccessDeniedThenDeleted(outcome: nat -> DeleteOutcome)
    requires outcome(0) == AccessDenied && outcome(1) == AccessDenied && outcome(2) == Deleted
    ensures DeleteRun(outcome) == DeleteReport(3, true)
  {
    assert Spent(outcome, 1) == 1;
    assert Spent(outcome, 2) == 2;
    StopsAtUnique(outcome, DeleteRun(outcome), DeleteReport(3, true));
  }

  /** A successful first call returns at once. */
  lemma FirstDeleteSucceeds(outcome: nat -> DeleteOutcome)
    requires outcome(0) == Deleted
    ensures DeleteRun(outcome) == DeleteReport(1, true)
  {
    StopsAtUnique(outcome, DeleteRun(outcome), DeleteReport(1, true));
  }
}

=== FILE: text.dfy ===
/** String helpers of the .NET base library used by the modelled code:
    `string.IsNullOrWhiteSpace`, decimal rendering of integers, and splitting. */
module Text {
  import opened Basics

  /** `char.IsWhiteSpace`: the Unicode space, line and paragraph separators,
      the control characters U+0009..U+000D and U+0085. */
  predicate IsWhiteSpace(c: char) {
    || c == ' ' || c == '\t' || c == '\n' || c == '\r' || c == '\U{0B}' || c == '\U{0C}'
    || c == '\U{85}' || c == '\U{A0}' || c == '\U{1680}'
    || ('\U{2000}' <= c <= '\U{200A}')
    || c == '\U{2028}' || c == '\U{2029}' || c == '\U{202F}' || c == '\U{205F}' || c == '\U{3000}'
  }

  /** `string.IsNullOrWhiteSpace`: null, empty, or only white space. */
  predicate IsNullOrWhiteSpace(s: Option<string>) {
    s.None? || forall i :: 0 <= i < |s.value| ==> IsWhiteSpace(s.value[i])
  }

  /** `TrimStart()`: the string without its leading white space. A string is
      blank exactly when trimming leaves nothing, the equivalent form .NET
      documents for `IsNullOrWhiteSpace`. */
  function TrimStart(s: string): (t: string)
    ensures |t| <= |s| && t == s[|s| - |t|..]
    ensures forall i :: 0 <= i < |s| - |t| ==> IsWhiteSpace(s[i])
    ensures |t| > 0 ==> !IsWhiteSpace(t[0])
    ensures IsNullOrWhiteSpace(Some(s)) <==> t == ""
    decreases |s|
  {
    if |s| > 0 && IsWhiteSpace(s[0]) then
      var t := TrimStart(s[1..]);
      assert forall i :: 1 <= i < |s| - |t| ==> s[i] == s[1..][i - 1];
      t
    else s
  }

  predicate IsDigit(c: char) {
    '0' <= c <= '9'
  }

  predicate AllDigits(s: string) {
    forall i :: 0 <= i < |s| ==> IsDigit(s[i])
  }

  function Digit(d: nat): (c: char)
    requires d < 10
    ensures IsDigit(c) && c as int - '0' as int == d
  {
    "0123456789"[d]
  }

  /** The invariant-culture decimal rendering of a natural number. */
  function Decimal(n: nat): (s: string)
    ensures 1 <= |s|
    ensures AllDigits(s)
    ensures n < 10 <==> |s| == 1
    decreases n
  {
    if n < 10 then [Digit(n)] else Decimal(n / 10) + [Digit(n % 10)]
  }

  /** The value of a string of decimal digits (the inverse of `Decimal`). */
  function ParseDecimal(s: string): nat
    decreases |s|
  {
    if |s| == 0 then 0
    else
      var c := s[|s| - 1];
      var d := if IsDigit(c) then c as int - '0' as int else 0;
      ParseDecimal(s[..|s| - 1]) * 10 + d
  }

  /** `long.ToString()` in the invariant culture. */
  function FormatInt(i: int): (s: string)
    ensures 1 <= |s|
    ensures i >= 0 ==> AllDigits(s)
    ensures i < 0 ==> s[0] == '-' && AllDigits(s[1..])
  {
    if i < 0 then "-" + Decimal(-i) else Decimal(i)
  }

  /** Parsing the rendering of `n` gives `n` back. */
  lemma {:induction false} ParseDecimalRoundTrip(n: nat)
    ensures ParseDecimal(Decimal(n)) == n
    decreases n
  {
    if n >= 10 {
      var s := Decimal(n);
      assert s[..|s| - 1] == Decimal(n / 10);
      ParseDecimalRoundTrip(n / 10);
    }
  }

  /** Distinct numbers render as distinct strings. */
  lemma DecimalInjective(m: nat, n: nat)
    ensures Decimal(m) == Decimal(n) ==> m == n
  {
    if Decimal(m) == Decimal(n) {
      ParseDecimalRoundTrip(m);
      ParseDecimalRoundTrip(n);
    }
  }

  /** Distinct integers render as distinct strings, so identifiers derived from
      distinct clock readings are distinct. */
  lemma FormatIntInjective(i: int, j: int)
    ensures FormatInt(i) == FormatInt(j) ==> i == j
  {
    if FormatInt(i) == FormatInt(j) {
      if i < 0 && j < 0 {
        assert FormatInt(i)[1..] == Decimal(-i);
        assert FormatInt(j)[1..] == Decimal(-j);
        DecimalInjective(-i, -j);
      } else if i >= 0 && j >= 0 {
        DecimalInjective(i, j);
      }
    }
  }

  predicate StartsWith(s: string, prefix: string) {
    |prefix| <= |s| && s[..|prefix|] == prefix
  }

  predicate EndsWith(s: string, suffix: string) {
    |suffix| <= |s| && s[|s| - |suffix|..] == suffix
  }

  /** `string.Split(sep)`: the pieces between occurrences of `sep`, always at least one. */
  function Split(s: string, sep: char): (parts: seq<string>)
    ensures 1 <= |parts|
    ensures forall k, i :: 0 <= k < |parts| && 0 <= i < |parts[k]| ==> parts[k][i] != sep
    decreases |s|
  {
    if |s| == 0 then [""]
    else
      var rest := Split(s[1..], sep);
      if s[0] == sep then [""] + rest
      else [[s[0]] + rest[0]] + rest[1..]
  }

  /** Splitting a separator-free piece followed by the separator peels off that piece. */
  lemma {:induction false} SplitPiece(a: string, sep: char, b: string)
    requires forall i :: 0 <= i < |a| ==> a[i] != sep
    ensures Split(a + [sep] + b, sep) == [a] + Split(b, sep)
    decreases |a|
  {
    if |a| == 0 {
      assert (a + [sep] + b)[1..] == b;
    } else {
      assert (a + [sep] + b)[1..] == a[1..] + [sep] + b;
      SplitPiece(a[1..], sep, b);
      assert [a[0]] + a[1..] == a;
    }
  }

  /** A separator-free string splits into itself. */
  lemma {:induction false} SplitWhole(a: string, sep: char)
    requires forall i :: 0 <= i < |a| ==> a[i] != sep
    ensures Split(a, sep) == [a]
    decreases |a|
  {
    if |a| > 0 {
      SplitWhole(a[1..], sep);
      assert [a[0]] + a[1..] == a;
    }
  }

  /** Three separator-free pieces joined by the separator split back into those pieces. */
  lemma SplitThree(a: string, b: string, c: string, sep: char)
    requires forall i :: 0 <= i < |a| ==> a[i] != sep
    requires forall i :: 0 <= i < |b| ==> b[i] != sep
    requires forall i :: 0 <= i < |c| ==> c[i] != sep
    ensures Split(a + [sep] + b + [sep] + c, sep) == [a, b, c]
  {
    assert a + [sep] + b + [sep] + c == a + [sep] + (b + [sep] + c);
    SplitPiece(a, sep, b + [sep] + c);
    SplitPiece(b, sep, c);
    SplitWhole(c, sep);
  }
}
